=== FILE: README.md ===
# Session and post controllers of a content-management API, in Dafny

This project models the server core of a small blogging application built with
Express and Mongoose:

- **The per-account refresh-token state machine** of the user controller. Each user
  record stores at most one refresh token. Login overwrites it. Refresh accepts a
  presented token only if it verifies, names an existing user and literally equals
  the stored value, and then rotates it. Logout unsets it.
- **Registration and profile update**, as guarded operations over the user records.
- **The owner-scoped post operations** of the post controller: create, list with
  pagination, get, update and delete. All of them sit behind the access-token gate
  and take the verified principal id as input.
- **The post schema**: defaults, trimming setters, and the `required`, `maxlength`
  and `enum` validators.

Each request is one pure transition `(store, request) -> (outcome, store')`.
Outcomes mirror what the application's error handler sends. A success carries a
status, a payload and a message. A thrown `ApiError` keeps its status code. Any
other thrown error (schema validation, JSON syntax) becomes a 500. The error
envelope always says `success: false`.

Files, one module each:

| file | module | models |
|---|---|---|
| `api.dfy` | `Api` | outcomes, the error envelope, upload results |
| `text.dfy` | `Text` | JavaScript `trim`, truthiness, UTF-16 `length` |
| `tokens.dfy` | `Tokens` | access and refresh tokens, minting, refresh verification |
| `users.dfy` | `Users` | the user controller |
| `sessions.dfy` | `Sessions` | properties spanning several user requests |
| `post_model.dfy` | `PostModel` | the post schema |
| `pagination.dfy` | `Pagination` | `getMyPosts` paging arithmetic |
| `post_controller.dfy` | `PostController` | the post controller |

How things are modelled:

- **Tokens** are values `Token(kind, subject, issuedAt, expiresAt)`. The kind says
  which secret signed the token: access, refresh, or a secret the server does not
  hold. The model assumes that the user model's token generators, which are not
  part of this model, sign a payload `{ _id, iat, exp }` with HS256. Under that
  assumption a token is determined by exactly these fields, so two tokens minted
  for the same user in the same second are equal.
- **Token freshness is an explicit assumption.** The controller does not ensure
  that a new token differs from the stored one. Every replay property therefore
  requires that the request is handled in a later second than the token's issue
  time. `Sessions.SameSecondReplay` shows what goes wrong without that
  requirement.
- **Verification** is `jsonwebtoken`'s rule: the token must carry the refresh kind,
  and it is rejected from its expiry second on.
- **Passwords** are compared by an equality stand-in for bcrypt.
- **Uploads** are an input (`Attachment`). The regular-expression search is an
  input predicate (`hits`). `JSON.parse` of a tag string is an input: the
  `TagText` field carries what parsing returned.
- **Collections.** The user collection is a sequence, and a user's `_id` is its
  position. The post collection is a sequence in creation order with a fresh-id
  counter.

## Model

| member | source | states |
|---|---|---|
| `Api.Render` | server/src/app.js:31-38 | The error reply always has `success: false`. Its status is the error's own status code, or 500 when the error has none (a library error) or the code is 0. Its message is never empty. An `ApiError` carries an empty `errors` list. |
| `Api.UploadedUrl` | server/src/controllers/user.controller.js:36-37 | A URL is used only when the upload returned a non-empty `url`; every other result counts as a failed upload. |
| `Api.UploadFailed` | server/src/controllers/post.controller.js:19-22 | `!uploadedImage?.url` after a file was sent: the upload failed exactly when it returned no `url` or an empty one. For a sent file, this is exactly when no URL can be used. |
| `Text.Blank` | server/src/controllers/user.controller.js:26 | `!field?.trim()` holds exactly when the field is absent or consists only of whitespace. |
| `Text.Truthy` | server/src/controllers/post.controller.js:13 | JavaScript truthiness of a string field, as in `if (title)` and `!email`. A field that is not blank is truthy. For a field without whitespace at its ends, truthy and not blank coincide. |
| `Text.TrimEmptyIffAllSpace` | server/src/controllers/user.controller.js:26 | `trim` yields the empty string exactly when the input is all whitespace. |
| `Text.TrimStart` | server/src/models/post.model.js:8 | Leading trim: the result is a suffix of the input, only whitespace was dropped, and the result does not start with whitespace. |
| `Text.TrimEnd` | server/src/models/post.model.js:8 | Trailing trim: the result is a prefix of the input, only whitespace was dropped, and the result does not end with whitespace. |
| `Text.Trim` | server/src/models/post.model.js:8 | `trim()` leaves no whitespace at either end of the result, and never lengthens the string. |
| `Text.TrimSplits` | server/src/models/post.model.js:8 | The input is `Trim`'s result with whitespace-only text before it and after it. |
| `Text.TrimOfAllSpace` | server/src/controllers/user.controller.js:26 | A string made only of whitespace trims to the empty string, so it counts as blank. |
| `Text.TrimUnique` | server/src/models/post.model.js:8 | Any split of a string into whitespace, a core with no whitespace at its ends, and whitespace has `Trim` equal to that core. This is an independent characterisation of trim. |
| `Text.TrimIdempotent` | server/src/controllers/post.controller.js:31-32 | Trimming twice equals trimming once. So the controller's `title.trim()` followed by the schema's trim stores the same string. |
| `Text.TrimOfTrimmed` | server/src/models/post.model.js:14 | A string with no whitespace at its ends is its own trim. |
| `Text.Utf16Length` | server/src/models/post.model.js:9 | The length the `maxlength` validator counts lies between the number of characters and twice that. It equals the character count exactly when no character lies above U+FFFF. |
| `Text.Utf16One` | server/src/models/post.model.js:9 | One character counts one code unit up to U+FFFF and two above it. |
| `Text.Utf16Append` | server/src/models/post.model.js:9 | The length of a concatenation is the sum of the lengths of its parts. |
| `Tokens.MintPair` | server/src/controllers/user.controller.js:11-12 | A minted pair has one access token and one refresh token, both for the given user. The refresh token is issued now and lives for the configured refresh lifetime. |
| `Tokens.Mint` | server/src/controllers/user.controller.js:11-12 | A minted token has the requested kind and subject. It is issued at the current second and expires after exactly the given lifetime. |
| `Tokens.VerifyRefresh` | server/src/controllers/user.controller.js:108-113 | Verification yields the token's subject exactly when the value is a token signed with the refresh secret and its expiry lies after the current second. Otherwise it yields nothing. |
| `Tokens.MintedRefreshVerifies` | server/src/controllers/user.controller.js:110 | Round trip: a freshly minted refresh token verifies to its subject until exactly the end of its lifetime. |
| `Tokens.AccessTokenIsNotRefresh` | server/src/controllers/user.controller.js:110 | An access token is never accepted where a refresh token is expected. |
| `Users.View` | server/src/controllers/user.controller.js:67 | The client projection has the user's id, name, email, avatar and bio. It has no password field and no refresh-token field. |
| `Users.ViewHidesSecrets` | server/src/controllers/user.controller.js:46 | Two records that differ only in password and stored token have the same projection. |
| `Users.FindByEmail` | server/src/controllers/user.controller.js:59 | `findOne({ email })` finds the first record whose email is exactly the given one. It finds nothing only when no record has that email. |
| `Users.StoreRefreshToken` | server/src/controllers/user.controller.js:14-15 | Saving a refresh token changes that field of that one record. Every other record stays the same. |
| `Users.GenerateTokens` | server/src/controllers/user.controller.js:8-21 | The stored refresh token of the user becomes the returned refresh token, whatever was stored before. No other record and no other field changes. |
| `Users.Register` | server/src/controllers/user.controller.js:23-52 | Registration gives 400 "All fields are required" when any of fullName, email or password is absent or blank after trimming. It gives 400 "User already exists with this email" when the email already exists (exact match). Then it gives 400 "Avatar image is required" when no file was attached, and 500 "Failed to upload avatar to Cloudinary" when the upload returned no URL. It succeeds exactly when none of these holds. On success it appends one record with no stored refresh token and answers 201 with its projection. On failure the store is unchanged. |
| `Users.RegisterKeepsEmailsUnique` | server/src/controllers/user.controller.js:30-31 | The duplicate check keeps emails unique across records. |
| `Users.AppendFreshEmail` | server/src/controllers/user.controller.js:30-31 | Adding a record whose email no record has keeps emails unique. |
| `Users.Login` | server/src/controllers/user.controller.js:54-86 | A missing email or password gives 400, an unknown email 404 and a wrong password 401. In all three cases the store is unchanged. Login succeeds exactly when the credentials match. Then the returned access and refresh tokens are the pair minted for that user at that second, the user's record differs from before only in its stored refresh token, which equals the one returned, the reply carries the user's projection, and every other record is unchanged. |
| `Users.Logout` | server/src/controllers/user.controller.js:88-102 | Logout always answers 200. It unsets the principal's stored refresh token and leaves every other record and field unchanged. |
| `Users.Incoming` | server/src/controllers/user.controller.js:105 | The presented token is the cookie's when the cookie holds a truthy value, and otherwise the body's. |
| `Users.RefreshAccessToken` | server/src/controllers/user.controller.js:104-135 | Refresh succeeds exactly when the presented token is present, verifies, names an existing user and equals that user's stored token. On success the stored token becomes the new refresh token and no other record changes. Every failure is a 401 with the store unchanged. An absent token gives "No refresh token provided". A token that does not verify gives "Invalid refresh token". A verified token naming no user, or not the stored one, gives "Refresh token is expired or invalid. Please log in again." |
| `Users.UpdateProfile` | server/src/controllers/user.controller.js:146-170 | Profile update sets fullName and bio only when they are truthy, and avatar only when an upload gave a URL. It never changes email, password or the stored refresh token, nor any other record. It answers with the projection, or with null when the principal has no record. |
| `Sessions.AcceptedOnlyIfHeld` | server/src/controllers/user.controller.js:116 | A presented token is accepted exactly when it is the token stored for its subject, has the refresh kind, and has not expired. |
| `Sessions.RotationDefeatsReplay` | server/src/controllers/user.controller.js:116-120 | Suppose a refresh with T1 succeeds and yields T2, in a second other than T1's issue second. Then T2 is stored, presenting T1 again fails with 401, and T2 is accepted until it expires. |
| `Sessions.SameSecondReplay` | server/src/controllers/user.controller.js:14-15 | Without fresh tokens, rotation does not stop replay: a token refreshed in the second it was minted is replaced by itself and is accepted again. |
| `Sessions.LogoutRevokes` | server/src/controllers/user.controller.js:89 | After logout, no token naming the principal is stored, and presenting any such token fails with 401. |
| `Sessions.LoginSupersedes` | server/src/controllers/user.controller.js:65 | After a successful login, every token for that account other than the one login returned is rejected. |
| `Sessions.StepNeverRestores` | server/src/controllers/user.controller.js:8-17 | No request of any kind re-installs a token that is not stored, unless the request mints in that token's issue second. |
| `Sessions.NoReplayAfterTrace` | server/src/controllers/user.controller.js:104-120 | Take a token that is not stored, whether it was rotated away or revoked. It is still not stored after any sequence of requests handled after its issue second. |
| `Sessions.ReplayRejectedAfterTrace` | server/src/controllers/user.controller.js:116-118 | After any such sequence, presenting the superseded token fails with 401. |
| `Sessions.SessionOnlyFromLogin` | server/src/controllers/user.controller.js:88-135 | An account with no stored token still has none after any request other than a login. |
| `Sessions.ScenarioLogin` | server/src/controllers/user.controller.js:54-86 | Logging in at second 100 to an account "a@x.com" that has no session, stores and returns the refresh token minted at second 100. |
| `Users.Presented` | server/src/controllers/user.controller.js:105-106 | A refresh token counts as presented exactly when it is there and is either a token or a non-empty string. |
| `Users.Accepts` | server/src/controllers/user.controller.js:110-116 | A refresh token is accepted exactly when it verifies with the refresh secret before its expiry, its subject is an existing user, and that user's stored token is this very token. An accepted token was presented. |
| `Sessions.ScenarioRefreshThenReplay` | server/src/controllers/user.controller.js:104-135 | Refreshing with that token at second 1000 rotates it. Presenting it again at second 1001 fails with 401 "Refresh token is expired or invalid. Please log in again.", and the new token is accepted. |
| `PostModel.ValidationErrors` | server/src/models/post.model.js:5-30 | A post has no validation errors exactly when its title is non-empty and at most 200 UTF-16 units, its content is non-empty, and its status is "draft" or "published". Each failing path is named. |
| `PostModel.ApplySetters` | server/src/models/post.model.js:5-25 | Casting trims the title, the content and each tag, and leaves every other field as it is. |
| `PostModel.CastAndValidate` | server/src/models/post.model.js:3-39 | A document is accepted exactly when its cast form passes validation. The stored post is the cast form and satisfies every schema constraint. |
| `PostModel.ValidPostIsFixedPoint` | server/src/models/post.model.js:5-25 | Casting a stored post changes nothing. |
| `PostModel.ValidPostCharacterised` | server/src/models/post.model.js:5-36 | A post is valid exactly when it passes every validator and the setters leave it unchanged, that is, exactly when it is a form a successful cast stores. |
| `PostModel.SettersFixIffTrimmed` | server/src/models/post.model.js:5-25 | The setters leave a document unchanged exactly when its title, content and every tag are already trimmed. |
| `PostModel.ValidPostRevalidates` | server/src/models/post.model.js:3-39 | A stored post passes validation again, unchanged. |
| `PostModel.TrimAllOfTrimmed` | server/src/models/post.model.js:20-25 | Trimming tags that are already trimmed changes nothing. |
| `PostModel.CastTrimmed` | server/src/models/post.model.js:3-39 | A document whose title and content are already trimmed is accepted exactly when its title, content and status pass their validators. It is then stored with only its tags trimmed. |
| `Pagination.Skip` | server/src/controllers/post.controller.js:68 | With a non-negative limit, `skip` is non-negative from page 1 on. With a positive limit it is negative before page 1. A negative limit is not covered: page 2 with limit -5 gives skip -5. |
| `Pagination.SortDirection` | server/src/controllers/post.controller.js:69 | The sort direction is 1 exactly when order is "asc", and -1 otherwise. |
| `Pagination.CeilDiv` | server/src/controllers/post.controller.js:85 | `Math.ceil(a / b)` is the least integer not below the real quotient. This is stated for both signs of the divisor. |
| `Pagination.TotalPages` | server/src/controllers/post.controller.js:85 | `totalPages` is null exactly when the limit is 0. Otherwise, with a positive limit, it is the fewest pages of that size that hold every post, and 0 when there are no posts. |
| `Pagination.EffectiveLimit` | server/src/controllers/post.controller.js:74 | A cursor limit of 0 means no limit. Any other limit caps the results at its magnitude. |
| `Pagination.Window` | server/src/controllers/post.controller.js:71-74 | `.skip(s).limit(l)` returns the contiguous slice starting at `s`, no longer than the effective limit, and empty when `s` is past the end. |
| `Pagination.PagesArePrefix` | server/src/controllers/post.controller.js:68-74 | With a positive limit, pages 1 to n together are exactly the first n·limit posts. |
| `Pagination.PagesCoverAll` | server/src/controllers/post.controller.js:68-85 | Walking pages 1 to `totalPages` returns every matching post exactly once, in order. |
| `Pagination.PastLastPageEmpty` | server/src/controllers/post.controller.js:68-85 | A page after `totalPages` is empty. |
| `PostController.FindOwned` | server/src/controllers/post.controller.js:97-100 | The lookup matches on both id and author. It finds the first such post, or nothing when no post has that id and that author. |
| `PostController.CreateTags` | server/src/controllers/post.controller.js:27-28 | A non-empty string is JSON-parsed (a parse failure yields nothing). An array passes through. An absent value or an empty string becomes `[]`. |
| `PostController.StatusOrDefault` | server/src/controllers/post.controller.js:35 | The status is the given one when truthy, and "published" otherwise. |
| `PostController.ImageOrDefault` | server/src/controllers/post.controller.js:17-25 | Without a file the image is `""`. With a file it is the uploaded URL. |
| `PostController.StoreNew` | server/src/controllers/post.controller.js:30-37 | `Post.create` of a document with trimmed title and content succeeds exactly when the title, content and status are allowed. It then appends a valid post with trimmed tags and advances the fresh id. A rejection answers 500 and writes nothing. |
| `PostController.CreateFailsWith500` | server/src/controllers/post.controller.js:10-37 | A failed creation answers 400 exactly when the title or content is missing. With both present every failure is a 500, including a schema rejection by `Post.create`. |
| `PostController.CreatePost` | server/src/controllers/post.controller.js:10-42 | A missing title or content gives 400. A failed upload gives 500, and so does an unparsable tag string. Creation succeeds exactly when these checks pass and the cast title, content and status satisfy the schema. The stored post then has the fresh id and the principal as author. Its title and content are trimmed, its image is `""` without a file, its tags are the parsed tags trimmed, and its status defaults to "published". The post is valid and appended; nothing is written on failure. |
| `PostController.BuildFilter` | server/src/controllers/post.controller.js:54-66 | The query is always restricted to the principal as author. It filters on status exactly when status is not "all", and searches exactly when the search term is non-empty. |
| `PostController.Matches` | server/src/controllers/post.controller.js:54-71 | Only the principal's posts match the `find(query)` filter. Without a status or search restriction, every post of the principal matches. |
| `PostController.FilterWidening` | server/src/controllers/post.controller.js:54-66 | Dropping the status or the search restriction never loses a match. The search predicate matters only when a search term is given. |
| `PostController.Matching` | server/src/controllers/post.controller.js:71 | Every returned post matches the filter. Each matching post occurs as often as it is stored, and no other post occurs. |
| `PostController.MatchingOne` | server/src/controllers/post.controller.js:71 | A single stored post is returned exactly when it matches the filter. |
| `PostController.MatchingCons` | server/src/controllers/post.controller.js:71 | The matches of a collection starting with a post are that post if it matches, followed by the matches of the rest. |
| `PostController.MatchingAppend` | server/src/controllers/post.controller.js:71 | The query keeps collection order: the matches of two consecutive stretches of the collection are the matches of the first followed by those of the second. |
| `PostController.Reverse` | server/src/controllers/post.controller.js:72 | Descending order lists the same posts back to front. |
| `PostController.SortByCreation` | server/src/controllers/post.controller.js:72 | Sorting is a permutation. Ascending order (direction 1) keeps creation order, and any other direction reverses it. |
| `PostController.ListFilter` | server/src/controllers/post.controller.js:46-66 | The query is restricted to the principal. It filters on status exactly when a status other than "all" is given, and then on that status. It searches exactly when a non-empty search term is given, and then for that term. |
| `PostController.SearchRejected` | server/src/controllers/post.controller.js:61-64 | `new RegExp(search)` throws exactly when the query carries a search restriction and the term does not compile. |
| `PostController.Listed` | server/src/controllers/post.controller.js:69-72 | The ordered listing holds exactly the matching posts, each as often as it is stored. |
| `PostController.GetMyPosts` | server/src/controllers/post.controller.js:44-92 | Page 1, limit 10, status "all" and no search are the defaults. A non-empty search that is not a valid regular expression gives 500. So does a negative `skip`. Otherwise the listing answers 200. `currentPage` is the page, and `totalPosts` is the number of matching posts. `totalPages` is their ceiling quotient by the limit. The posts are the window at `skip` of the matching posts in creation order, reversed unless order is "asc". With a positive limit that is positions `(page-1)·limit` up to `page·limit` of that list. Each returned post matches the filter and comes from the collection. |
| `PostController.ListPage` | server/src/controllers/post.controller.js:71-74 | A page is the window of the ordered matching posts. Every post on it matches and is stored. |
| `PostController.ListedFromStore` | server/src/controllers/post.controller.js:71-72 | Every listed post matches the filter and is stored. |
| `PostController.MyPageIsWindow` | server/src/controllers/post.controller.js:68-74 | Asking for page n (n ≥ 1) with a positive limit succeeds. It returns the n-th window of the ordered matching posts. |
| `PostController.MyPostsCoverAll` | server/src/controllers/post.controller.js:44-92 | Fetching pages 1 to `totalPages` one request at a time returns the whole ordered listing. Every matching post comes back as often as it is stored, and nothing else comes back. |
| `Pagination.FetchedArePages` | server/src/controllers/post.controller.js:68-74 | A client whose every page request returns the matching window receives exactly the pages. |
| `Pagination.WindowWithin` | server/src/controllers/post.controller.js:73-74 | A window holds only elements of the list it is cut from. |
| `PostController.GetPostById` | server/src/controllers/post.controller.js:94-109 | The post is returned exactly when one with that id is owned by the principal. Otherwise the answer is 404 "Post not found or unauthorized". |
| `PostController.UpdateTags` | server/src/controllers/post.controller.js:125-132 | The update is refused exactly when tags are a non-empty string that does not parse. Tags are left out of the update exactly when absent or an empty string. |
| `PostController.BuildPatch` | server/src/controllers/post.controller.js:119-140 | The update contains exactly the truthy fields: title and content trimmed, status as given, the parsed tags, and the uploaded image's URL. |
| `PostController.CastPatch` | server/src/models/post.model.js:5-25 | Casting an update trims the title, content and tags it sets, and sets no other path. |
| `PostController.PatchErrors` | server/src/controllers/post.controller.js:146-150 | Update validators reject exactly when a path being set breaks its schema constraint. |
| `PostController.CastBuiltPatch` | server/src/controllers/post.controller.js:121-122 | The controller's own trim makes the schema's trim of title and content a no-op. |
| `PostController.ApplyPatch` | server/src/controllers/post.controller.js:148 | `$set` gives each field the patch names the patch's value. Every other field, the id and the author keep their old values, and an empty patch changes nothing. |
| `PostController.EmptyPatch` | server/src/controllers/post.controller.js:142 | `Object.keys(updateFields).length === 0` holds exactly when the update sets none of title, content, status, tags and image. |
| `PostController.PatchKeepsValid` | server/src/controllers/post.controller.js:146-150 | A validated update keeps a stored post valid. |
| `PostController.WriteUpdate` | server/src/controllers/post.controller.js:146-154 | A validation failure gives 500, and it happens before the lookup. A post not owned by the principal gives 404. Otherwise exactly that post is replaced by its patched form, and nothing is written on failure. |
| `PostController.UpdatePost` | server/src/controllers/post.controller.js:111-159 | An unparsable tag string gives 400 "Invalid tags format". A failed upload then gives 500 "Image upload failed". An update with no field gives 400 "No fields provided for update". The update succeeds exactly when the tags parse, the upload did not fail, some field is set, the cast fields pass validation, and the principal owns a post with that id. When the tags parse, the upload did not fail and some field is set, a validation rejection of the cast fields gives 500. 404 comes only when the principal owns no post with that id. A success replaces exactly the matched post, keeps its id and author, and keeps it valid. No failure writes anything. |
| `PostController.UpdateChangesOnlyGivenFields` | server/src/controllers/post.controller.js:119-150 | A successful update sets each provided field, trimming where the schema trims, and leaves every other field of the post as it was. |
| `PostController.DeletePost` | server/src/controllers/post.controller.js:161-176 | Delete succeeds exactly when the principal owns a post with that id, and removes exactly that entry. Otherwise it answers 404 and leaves the collection unchanged. |
| `PostController.RemoveAt` | server/src/controllers/post.controller.js:164-167 | Removing the matched entry shortens the collection by one. Entries before it keep their places, and later ones move down by one. |
| `PostController.AppendKeepsWellFormed` | server/src/controllers/post.controller.js:30-37 | Appending a valid post under the fresh id keeps the ids distinct and every post valid. |
| `PostController.CreateKeepsWellFormed` | server/src/controllers/post.controller.js:30-37 | Creating a post keeps the ids distinct and every stored post valid. |
| `PostController.UpdateKeepsWellFormed` | server/src/controllers/post.controller.js:146-150 | Updating a post keeps the ids distinct and every stored post valid. |
| `PostController.DeleteKeepsWellFormed` | server/src/controllers/post.controller.js:164-167 | Deleting a post keeps the ids distinct and every stored post valid. |
| `PostController.DeleteRemovesExactly` | server/src/controllers/post.controller.js:164-171 | After a delete, the collection is one post shorter. Every post with another id remains. Getting the deleted post answers 404. |
| `PostController.OthersPostsUntouched` | server/src/controllers/post.controller.js:97-103 | A post owned by someone else cannot be reached: get and delete answer 404, no update succeeds, and the collection is unchanged. |

## Behaviour worth knowing

- **Duplicate email.** A duplicate email at registration is answered with 400.
- **Email comparison.** Emails are compared exactly as given (`findOne({ email })`).
  The user model, which might lowercase them, is not part of this model.
- **Login failures.** Login answers 404 for an unknown email and 401 for a wrong
  password.
- **Refresh is not a compare-and-swap.** Refresh reads the stored token, compares
  it, and later writes the new one in a separate save. The model treats each
  request as one sequential step.
- **Validation before lookup.** `updatePost` runs Mongoose's update validators
  before the owner-matched lookup. An invalid update of a missing post therefore
  answers 500, not 404.

## Left out

- JWT signing and verification internals, bcrypt hashing, the user model
  (`generateAccessToken`, `generateRefreshToken`, `isPasswordMatch`, its schema)
  and the access-token middleware are not part of this model. They are replaced by
  `Tokens.Mint`, `Tokens.VerifyRefresh`, `Users.PasswordMatches`, and a principal
  id passed in.
- Concurrency: two refreshes racing between the compare and the save are not
  modelled. No exactly-one-winner property is claimed.
- Cloudinary uploads, cookies and their options, response construction, Express
  routing and multer are transport or external I/O. Uploads enter as an
  `Attachment` input.
- The regular-expression search is evaluated by the database and is an input
  predicate here. Whether the search term compiles as a regular expression is an
  input flag. The `SyntaxError` that `new RegExp(search)` throws is modelled only
  as a 500 with a placeholder message.
- Database and library failures that the shown code only propagates are not
  modelled, with their 500 replies. These are the `catch` in
  `generateAccessAndRefreshTokens`, a failed re-read after registration, and
  `CastError` on a malformed id.
- `JSON.parse` results other than arrays of strings, and Mongoose's casting of
  them, are not modelled. The messages of library errors are placeholders.
- `getCurrentUser` only echoes the record the auth middleware (outside the modelled files) attached, so it
  is not modelled.
- Timestamps (`createdAt`, `updatedAt`) are not modelled. So are non-numeric or
  fractional `page` and `limit`, and the `!id` check in `updatePost`, which the
  route always satisfies.
- PostController.GetMyPosts: results are ordered by creation time, ascending or
  descending, whatever `sortBy` names. Sorting on other fields is not modelled,
  and neither is the order of posts created in the same millisecond.

=== FILE: api.dfy ===
/** Results of the Express controllers and the error envelope written by the
    application's final error handler (server/src/app.js).

    A controller either answers with a status, a payload and a message, or throws.
    What it throws is either an `ApiError`, which carries its own status code, or
    an error raised by a library (a schema validation failure, a JSON syntax
    error), which does not. The handler turns both into the same JSON shape. */
module Api {

  datatype Option<+T> = None | Some(value: T)

  /** An error thrown inside a controller. */
  datatype Thrown =
    | ApiError(statusCode: nat, message: string)
    | LibraryError(message: string, details: seq<string>)

  /** What one request handler produces. */
  datatype Outcome<+T> =
    | Done(status: nat, data: T, message: string)
    | Threw(error: Thrown)

  /** The body of an error reply: `{ success, message, errors }`. */
  datatype ErrorBody = ErrorBody(success: bool, message: string, errors: seq<string>)

  const InternalServerError: string := "Internal Server Error"

  /** The error handler: `err.statusCode || 500`, `err.message || "Internal Server Error"`,
      `err.errors || []`. A library error has no status code of its own. */
  function Render(e: Thrown): (r: (nat, ErrorBody))
    ensures !r.1.success
    ensures r.0 == 500 <==> (e.LibraryError? || e.statusCode in {0, 500})
    ensures e.ApiError? && e.statusCode != 0 ==> r.0 == e.statusCode
    ensures r.1.message != []
    ensures e.message != [] ==> r.1.message == e.message
    ensures e.ApiError? ==> r.1.errors == []
  {
    var status := if e.ApiError? && e.statusCode != 0 then e.statusCode else 500;
    var message := if e.message != [] then e.message else InternalServerError;
    var errors := if e.LibraryError? then e.details else [];
    (status, ErrorBody(false, message, errors))
  }

  /** The status code a client sees for an outcome. */
  function StatusOf<T>(o: Outcome<T>): nat
  {
    match o
    case Done(s, _, _) => s
    case Threw(e) => Render(e).0
  }

  /** A multipart file field as the cloud upload reports it: no file was sent,
      or a file was sent and the upload returned an object whose `url` may be
      missing. The upload itself is external I/O and is not modelled. */
  datatype Attachment = NoFile | Sent(url: Option<string>)

  /** The URL an upload produced, if it produced a usable one (`uploaded?.url` truthy). */
  function UploadedUrl(a: Attachment): (r: Option<string>)
    ensures r.Some? ==> r.value != [] && a == Sent(Some(r.value))
    ensures r.None? <==> (a.NoFile? || a.url.None? || a.url.value == [])
  {
    match a
    case NoFile => None
    case Sent(u) => if u.Some? && u.value != [] then u else None
  }

  /** An upload was attempted and gave nothing usable. */
  predicate UploadFailed(a: Attachment)
    ensures UploadFailed(a) <==> a.Sent? && (a.url.None? || a.url.value == [])
    ensures a.Sent? ==> (UploadFailed(a) <==> UploadedUrl(a).None?)
  {
    a.Sent? && UploadedUrl(a).None?
  }
}

=== FILE: pagination.dfy ===
/** The pagination arithmetic of `getMyPosts`
    (server/src/controllers/post.controller.js) and the way the database applies
    `skip` and `limit` to the sorted matching posts. */
module Pagination {
  import opened Api

  const DefaultPage: int := 1
  const DefaultLimit: int := 10

  /** `(Number(page) - 1) * Number(limit)`: the number of matching posts before
      the requested page. */
  function Skip(page: int, limit: int): (s: int)
    ensures page >= 1 && limit >= 0 ==> s >= 0
    ensures page < 1 && limit > 0 ==> s < 0
  {
    (page - 1) * limit
  }

  /** `order === "asc" ? 1 : -1`. */
  function SortDirection(order: string): (d: int)
    ensures d == 1 || d == -1
    ensures d == 1 <==> order == "asc"
  {
    if order == "asc" then 1 else -1
  }

  /** `Math.ceil(a / b)` for a count `a` and a non-zero divisor. */
  function CeilDiv(a: nat, b: int): (r: int)
    requires b != 0
    ensures b > 0 ==> (r - 1) * b < a <= r * b
    ensures b < 0 ==> r * b <= a < (r - 1) * b
  {
    if b > 0 then (a + b - 1) / b else -(a / -b)
  }

  /** `Math.ceil(totalPosts / Number(limit))`; a zero limit gives `Infinity` or
      `NaN`, which the JSON reply carries as `null` (`None` here). */
  function TotalPages(total: nat, limit: int): (r: Option<int>)
    ensures r.None? <==> limit == 0
    ensures limit > 0 ==> r.value >= 0 && (r.value - 1) * limit < total <= r.value * limit
    ensures limit > 0 && total == 0 ==> r.value == 0
  {
    if limit == 0 then None else Some(CeilDiv(total, limit))
  }

  /** How many documents a cursor with `limit(n)` returns at most: zero means
      no limit, and a negative limit is taken by its magnitude. */
  function EffectiveLimit(limit: int): (r: Option<nat>)
    ensures r.None? <==> limit == 0
    ensures r.Some? ==> r.value > 0 && (r.value == limit || r.value == -limit)
  {
    if limit == 0 then None else if limit > 0 then Some(limit) else Some(-limit)
  }

  function Min(a: int, b: int): int
  {
    if a <= b then a else b
  }

  /** `.skip(skip).limit(limit)` over an already sorted sequence. */
  function Window<T>(xs: seq<T>, skip: nat, limit: int): (r: seq<T>)
    ensures var from := Min(skip, |xs|);
            var lim := EffectiveLimit(limit);
            var to := if lim.None? then |xs| else Min(from + lim.value, |xs|);
            r == xs[from..to]
    ensures EffectiveLimit(limit).Some? ==> |r| <= EffectiveLimit(limit).value
    ensures skip >= |xs| ==> r == []
    ensures limit > 0 ==> r == xs[Min(skip, |xs|)..Min(skip + limit, |xs|)]
  {
    var from := Min(skip, |xs|);
    match EffectiveLimit(limit)
    case None => xs[from..]
    case Some(n) => xs[from..Min(from + n, |xs|)]
  }

  /** A window holds only elements of the sequence it is cut from. */
  lemma WindowWithin<T>(xs: seq<T>, skip: nat, limit: int)
    ensures forall k :: 0 <= k < |Window(xs, skip, limit)| ==> Window(xs, skip, limit)[k] in xs
  {
    var r := Window(xs, skip, limit);
    var from := Min(skip, |xs|);
    forall k | 0 <= k < |r|
      ensures r[k] in xs
    {
      assert r[k] == xs[from + k];
    }
  }

  lemma MulMonotone(a: int, b: int, c: nat)
    requires a <= b
    ensures a * c <= b * c
  {
    assert b * c - a * c == (b - a) * c;
  }

  /** Pages 1 to `n` of `xs` with a positive `limit`, concatenated. */
  function Pages<T>(xs: seq<T>, limit: int, n: nat): seq<T>
    requires limit > 0
  {
    if n == 0 then [] else Pages(xs, limit, n - 1) + Window(xs, Skip(n, limit), limit)
  }

  /** The first `n` pages are exactly the first `n * limit` posts. */
  lemma {:induction false} PagesArePrefix<T>(xs: seq<T>, limit: int, n: nat)
    requires limit > 0
    ensures Pages(xs, limit, n) == xs[..Min(n * limit, |xs|)]
  {
    if n > 0 {
      PagesArePrefix(xs, limit, n - 1);
      var m := (n - 1) * limit;
      assert n * limit == m + limit by {
        assert n * limit == (n - 1) * limit + 1 * limit;
      }
      assert m >= 0 by {
        MulMonotone(0, n - 1, limit);
      }
      assert Skip(n, limit) == m;
      NextPage(xs, limit, m);
    }
  }

  /** The page starting after the first `m` posts extends them by up to `limit`. */
  lemma NextPage<T>(xs: seq<T>, limit: int, m: nat)
    requires limit > 0
    ensures xs[..Min(m, |xs|)] + Window(xs, m, limit) == xs[..Min(m + limit, |xs|)]
  {
    var a := Min(m, |xs|);
    var b := Min(m + limit, |xs|);
    assert Window(xs, m, limit) == xs[a..b];
    assert xs[..a] + xs[a..b] == xs[..b];
  }

  /** Pages 1 to `n` as a client fetches them, one request per page. */
  function Fetched<T>(fetch: nat -> seq<T>, n: nat): seq<T>
  {
    if n == 0 then [] else Fetched(fetch, n - 1) + fetch(n)
  }

  /** A client whose every request returns the matching window receives
      exactly the pages. */
  lemma {:induction false} FetchedArePages<T>(fetch: nat -> seq<T>, xs: seq<T>, limit: int, n: nat)
    requires limit > 0
    requires forall i :: 1 <= i <= n ==> fetch(i) == Window(xs, Skip(i, limit), limit)
    ensures Fetched(fetch, n) == Pages(xs, limit, n)
  {
    if n > 0 {
      FetchedArePages(fetch, xs, limit, n - 1);
    }
  }

  /** Walking pages 1 to `totalPages` returns every matching post exactly once,
      and in order. */
  lemma PagesCoverAll<T>(xs: seq<T>, limit: int)
    requires limit > 0
    ensures Pages(xs, limit, TotalPages(|xs|, limit).value) == xs
  {
    var n := TotalPages(|xs|, limit).value;
    PagesArePrefix(xs, limit, n);
    assert Min(n * limit, |xs|) == |xs|;
    assert xs[..|xs|] == xs;
  }

  /** A page after the last one is empty. */
  lemma PastLastPageEmpty<T>(xs: seq<T>, limit: int, page: int)
    requires limit > 0
    requires page > TotalPages(|xs|, limit).value
    ensures Window(xs, Skip(page, limit), limit) == []
  {
    var n := TotalPages(|xs|, limit).value;
    MulMonotone(n, page - 1, limit);
    assert Skip(page, limit) >= |xs|;
  }
}

=== FILE: post_controller.dfy ===
/** The post controller (server/src/controllers/post.controller.js) as
    owner-scoped operations over the post collection.

    Every post route sits behind the access-token gate, so each operation takes
    the already verified principal id as an input. The collection is a sequence
    in insertion (creation) order; `nextId` stands for the fresh `_id` the
    database assigns to the next post. */
module PostController {
  import opened Api
  import opened Text
  import opened Tokens
  import opened PostModel
  import opened Pagination

  datatype PostStore = PostStore(posts: seq<Post>, nextId: PostId)

  /** The result of one request together with the collection after it. */
  datatype PostStep<+T> = PostStep(out: Outcome<T>, store: PostStore)

  /** The `tags` field of a request: absent, an array (a JSON body), or a string
      (a multipart form) together with what `JSON.parse` makes of it, `None`
      when it throws. JSON parsing is a library call and is not modelled. */
  datatype TagsField = NoTags | TagArray(items: seq<string>) | TagText(text: string, parsed: Option<seq<string>>)

  /** What every collection reached from an empty one satisfies: ids are
      distinct and below `nextId`, and every post passed the schema. */
  predicate WellFormed(s: PostStore)
  {
    && (forall k :: 0 <= k < |s.posts| ==> s.posts[k].id < s.nextId && ValidPost(s.posts[k]))
    && DistinctIds(s.posts)
  }

  /** No two posts share an id. */
  predicate DistinctIds(posts: seq<Post>)
  {
    forall i, j :: 0 <= i < j < |posts| ==> posts[i].id != posts[j].id
  }

  /** `findOne({ _id: id, author: principal })`: the position of the first post
      with that id written by that principal. */
  function FindOwned(posts: seq<Post>, principal: UserId, id: PostId, from: nat := 0): (r: Option<nat>)
    requires from <= |posts|
    ensures r.Some? ==> from <= r.value < |posts| && posts[r.value].id == id && posts[r.value].author == principal
    ensures r.Some? ==> forall k :: from <= k < r.value ==> !(posts[k].id == id && posts[k].author == principal)
    ensures r.None? ==> forall k :: from <= k < |posts| ==> !(posts[k].id == id && posts[k].author == principal)
    decreases |posts| - from
  {
    if from == |posts| then None
    else if posts[from].id == id && posts[from].author == principal then Some(from)
    else FindOwned(posts, principal, id, from + 1)
  }

  const TitleContentRequired: string := "Title and content are required"
  const ImageUploadFailed: string := "Image upload failed"
  const PostNotFound: string := "Post not found or unauthorized"
  const InvalidTags: string := "Invalid tags format"
  const NoFieldsProvided: string := "No fields provided for update"
  /** Stands for the message of the `SyntaxError` that `JSON.parse` throws. */
  const JsonSyntaxError: string := "Unexpected token in JSON"

  /** The tags `createPost` stores before the schema trims them, or `None` when
      `JSON.parse` throws: a non-empty string is parsed, an array passes
      through, and an absent or empty value becomes `[]`. */
  function CreateTags(t: TagsField): (r: Option<seq<string>>)
    ensures t.NoTags? ==> r == Some([])
    ensures t.TagArray? ==> r == Some(t.items)
    ensures t.TagText? && t.text == [] ==> r == Some([])
    ensures t.TagText? && t.text != [] ==> r == t.parsed
  {
    match t
    case NoTags => Some([])
    case TagArray(xs) => Some(xs)
    case TagText(text, parsed) => if text == [] then Some([]) else parsed
  }

  /** `status || "published"`. */
  function StatusOrDefault(status: Option<string>): (s: string)
    ensures Truthy(status) ==> s == status.value
    ensures !Truthy(status) ==> s == DefaultStatus
  {
    if Truthy(status) then status.value else DefaultStatus
  }

  /** The image URL of a new post: the upload's URL, or the schema default. */
  function ImageOrDefault(image: Attachment): (url: string)
    requires !UploadFailed(image)
    ensures image.NoFile? ==> url == DefaultImage
    ensures image.Sent? ==> image.url == Some(url) && url != []
  {
    match UploadedUrl(image)
    case None => DefaultImage
    case Some(u) => u
  }

  /** `Post.create(doc)` for a document whose title and content are already
      trimmed: the schema trims the tags, validates, and the post is appended
      under the fresh id. */
  function StoreNew(store: PostStore, doc: Post): (r: PostStep<Post>)
    requires IsTrimmed(doc.title) && IsTrimmed(doc.content)
    ensures r.out.Threw? ==> r.store == store && StatusOf(r.out) == 500
    ensures r.out.Done? <==> TitleAllowed(doc.title) && ContentAllowed(doc.content) && StatusAllowed(doc.status)
    ensures r.out.Done? ==>
              && r.out.status == 201
              && r.out.data == doc.(tags := TrimAll(doc.tags))
              && ValidPost(r.out.data)
              && r.store == PostStore(store.posts + [r.out.data], store.nextId + 1)
  {
    CastTrimmed(doc);
    var cast := CastAndValidate(doc);
    if cast.Rejected? then
      PostStep(Threw(LibraryError(ValidationFailed, cast.paths)), store)
    else
      PostStep(Done(201, cast.post, "Post created successfully"),
               PostStore(store.posts + [cast.post], store.nextId + 1))
  }

  /** `createPost`: require a truthy title and content, attach the uploaded
      image, parse the tags, default the status, and store the document the
      schema accepts, owned by the principal. */
  function CreatePost(store: PostStore, principal: UserId, title: Option<string>, content: Option<string>,
                      tags: TagsField, status: Option<string>, image: Attachment): (r: PostStep<Post>)
    ensures r.out.Threw? ==> r.store == store
    ensures !Truthy(title) || !Truthy(content) ==>
              r.out == Threw(ApiError(400, TitleContentRequired))
    ensures Truthy(title) && Truthy(content) && UploadFailed(image) ==>
              r.out == Threw(ApiError(500, ImageUploadFailed))
    ensures Truthy(title) && Truthy(content) && !UploadFailed(image) && CreateTags(tags).None? ==>
              r.out.Threw? && StatusOf(r.out) == 500
    ensures r.out.Done? <==>
              && Truthy(title) && Truthy(content) && !UploadFailed(image) && CreateTags(tags).Some?
              && TitleAllowed(Trim(title.value)) && ContentAllowed(Trim(content.value))
              && StatusAllowed(StatusOrDefault(status))
    ensures r.out.Done? ==>
              && var p := r.out.data;
                 && r.out.status == 201
                 && r.store.posts == store.posts + [p] && r.store.nextId == store.nextId + 1
                 && p.id == store.nextId
                 && p.author == principal
                 && p.title == Trim(title.value) && p.content == Trim(content.value)
                 && p.image == ImageOrDefault(image)
                 && p.tags == TrimAll(CreateTags(tags).value)
                 && p.status == StatusOrDefault(status)
                 && ValidPost(p)
  {
    if !Truthy(title) || !Truthy(content) then
      PostStep(Threw(ApiError(400, TitleContentRequired)), store)
    else if UploadFailed(image) then
      PostStep(Threw(ApiError(500, ImageUploadFailed)), store)
    else
      match CreateTags(tags)
      case None => PostStep(Threw(LibraryError(JsonSyntaxError, [])), store)
      case Some(parsed) =>
        var doc := Post(store.nextId, Trim(title.value), Trim(content.value), ImageOrDefault(image),
                        parsed, StatusOrDefault(status), principal);
        StoreNew(store, doc)
  }

  /** The query parameters of `getMyPosts`, each absent unless given. */
  datatype ListQuery = ListQuery(
    page: Option<int>,
    limit: Option<int>,
    search: Option<string>,
    status: Option<string>,
    sortBy: Option<string>,
    order: Option<string>)

  /** The database filter `getMyPosts` builds. */
  datatype Filter = Filter(author: UserId, status: Option<string>, search: Option<string>)

  datatype Listing = Listing(posts: seq<Post>, currentPage: int, totalPages: Option<int>, totalPosts: nat)

  function GetOr<T>(o: Option<T>, default: T): T
  {
    if o.Some? then o.value else default
  }

  /** `{ author }`, plus `status` unless it is "all", plus the text search when
      the search term is non-empty. */
  function BuildFilter(principal: UserId, status: string, search: string): (f: Filter)
    ensures f.author == principal
    ensures f.status.Some? <==> status != "all"
    ensures f.status.Some? ==> f.status.value == status
    ensures f.search.Some? <==> search != []
    ensures f.search.Some? ==> f.search.value == search
  {
    Filter(principal, if status != "all" then Some(status) else None, if search != [] then Some(search) else None)
  }

  /** Whether a post matches the filter. The case-insensitive regular
      expression search over title, content and tags is evaluated by the
      database; `hits` stands for it. */
  predicate Matches(p: Post, f: Filter, hits: Post -> bool)
    ensures Matches(p, f, hits) ==> p.author == f.author
    ensures f.status.None? && f.search.None? ==> (Matches(p, f, hits) <==> p.author == f.author)
  {
    && p.author == f.author
    && (f.status.Some? ==> p.status == f.status.value)
    && (f.search.Some? ==> hits(p))
  }

  /** Status "all" and an empty search only widen a listing, and the search
      predicate matters only when a search term is given. */
  lemma FilterWidening(p: Post, f: Filter, hits: Post -> bool)
    ensures Matches(p, f, hits) ==> Matches(p, f.(status := None), hits) && Matches(p, f.(search := None), hits)
    ensures f.search.None? ==> (Matches(p, f, hits) <==> Matches(p, f, _ => false))
  {
  }

  /** The matching posts, in collection order: each matching post occurs as
      often as in the collection, and no other post occurs. */
  function Matching(posts: seq<Post>, f: Filter, hits: Post -> bool): (r: seq<Post>)
    ensures forall k :: 0 <= k < |r| ==> Matches(r[k], f, hits)
    ensures forall x :: multiset(r)[x] == if Matches(x, f, hits) then multiset(posts)[x] else 0
  {
    if posts == [] then []
    else
      var rest := Matching(posts[1..], f, hits);
      assert posts == [posts[0]] + posts[1..];
      if Matches(posts[0], f, hits) then [posts[0]] + rest else rest
  }

  /** A single post is listed exactly when it matches. */
  lemma MatchingOne(x: Post, f: Filter, hits: Post -> bool)
    ensures Matching([x], f, hits) == if Matches(x, f, hits) then [x] else []
  {
    assert [x][1..] == [];
  }

  /** `find` keeps collection order: the matches of two stretches of the
      collection are the matches of the first followed by those of the second. */
  lemma MatchingAppend(a: seq<Post>, b: seq<Post>, f: Filter, hits: Post -> bool)
    ensures Matching(a + b, f, hits) == Matching(a, f, hits) + Matching(b, f, hits)
  {
    MatchingIsKept(a + b, f, hits);
    MatchingIsKept(a, f, hits);
    MatchingIsKept(b, f, hits);
    KeptAppend(a, b, f, hits);
  }

  /** The matching posts in collection order, as a plain filter; `Matching`
      is the same sequence (`MatchingIsKept`). */
  function Kept(posts: seq<Post>, f: Filter, hits: Post -> bool): seq<Post>
  {
    if posts == [] then [] else (if Matches(posts[0], f, hits) then [posts[0]] else []) + Kept(posts[1..], f, hits)
  }

  lemma {:induction false} MatchingIsKept(posts: seq<Post>, f: Filter, hits: Post -> bool)
    ensures Matching(posts, f, hits) == Kept(posts, f, hits)
    decreases |posts|
  {
    if posts != [] {
      MatchingIsKept(posts[1..], f, hits);
    }
  }

  lemma {:induction false} KeptAppend(a: seq<Post>, b: seq<Post>, f: Filter, hits: Post -> bool)
    ensures Kept(a + b, f, hits) == Kept(a, f, hits) + Kept(b, f, hits)
    decreases |a|
  {
    if a == [] {
      assert a + b == b;
    } else {
      assert (a + b)[0] == a[0];
      assert (a + b)[1..] == a[1..] + b;
      KeptAppend(a[1..], b, f, hits);
    }
  }

  /** The matches of a collection starting with `x`: `x` itself if it matches,
      then the matches of the rest. */
  lemma MatchingCons(x: Post, xs: seq<Post>, f: Filter, hits: Post -> bool)
    ensures Matching([x] + xs, f, hits) == (if Matches(x, f, hits) then [x] else []) + Matching(xs, f, hits)
  {
    var posts := [x] + xs;
    assert posts[0] == x;
    assert posts[1..] == xs;
  }

  /** Back to front; the same elements, as often as before. */
  function Reverse<T>(xs: seq<T>): (r: seq<T>)
    ensures |r| == |xs|
    ensures forall k :: 0 <= k < |xs| ==> r[k] == xs[|xs| - 1 - k]
    ensures multiset(r) == multiset(xs)
  {
    if xs == [] then []
    else
      assert xs == [xs[0]] + xs[1..];
      Reverse(xs[1..]) + [xs[0]]
  }

  /** Sorting by creation time: ascending is collection order, descending its
      reverse; either way a permutation of the input. */
  function SortByCreation(xs: seq<Post>, direction: int): (r: seq<Post>)
    ensures |r| == |xs|
    ensures multiset(r) == multiset(xs)
    ensures direction == 1 ==> r == xs
    ensures direction != 1 ==> forall k :: 0 <= k < |xs| ==> r[k] == xs[|xs| - 1 - k]
  {
    if direction == 1 then xs else Reverse(xs)
  }

  /** The filter of a listing request, with the query defaults applied. */
  function ListFilter(principal: UserId, q: ListQuery): (f: Filter)
    ensures f.author == principal
    ensures f.status.Some? <==> q.status.Some? && q.status.value != "all"
    ensures f.status.Some? ==> f.status == q.status
    ensures f.search.Some? <==> q.search.Some? && q.search.value != []
    ensures f.search.Some? ==> f.search == q.search
  {
    BuildFilter(principal, GetOr(q.status, "all"), GetOr(q.search, ""))
  }

  /** The principal's matching posts in the requested order, before paging:
      newest first unless `order` is "asc". */
  function Listed(store: PostStore, principal: UserId, q: ListQuery, hits: Post -> bool): (r: seq<Post>)
    ensures multiset(r) == multiset(Matching(store.posts, ListFilter(principal, q), hits))
    ensures |r| == |Matching(store.posts, ListFilter(principal, q), hits)|
    ensures forall k :: 0 <= k < |r| ==> Matches(r[k], ListFilter(principal, q), hits)
  {
    var m := Matching(store.posts, ListFilter(principal, q), hits);
    var r := SortByCreation(m, SortDirection(GetOr(q.order, "desc")));
    assert forall k :: 0 <= k < |r| ==> r[k] in multiset(m);
    r
  }

  /** Whether the listing throws before querying: a non-empty search term that
      is not a valid regular expression makes `new RegExp` throw. */
  predicate SearchRejected(q: ListQuery, compiles: bool)
    ensures forall principal: UserId :: SearchRejected(q, compiles) <==> !compiles && ListFilter(principal, q).search.Some?
  {
    GetOr(q.search, "") != [] && !compiles
  }

  /** Stands for the message of the `SyntaxError` that `new RegExp` throws. */
  const RegexSyntaxError: string := "Invalid regular expression"

  /** `getMyPosts`: the requested page of the principal's matching posts, with
      the pagination summary. `hits` is what the case-insensitive search over
      title, content and tags selects, and `compiles` whether the search term
      is a valid regular expression. A negative `skip` is refused by the
      database. */
  function GetMyPosts(store: PostStore, principal: UserId, q: ListQuery, hits: Post -> bool, compiles: bool)
    : (r: Outcome<Listing>)
    ensures var page := GetOr(q.page, DefaultPage);
            var limit := GetOr(q.limit, DefaultLimit);
            && (r.Done? <==> !SearchRejected(q, compiles) && Skip(page, limit) >= 0)
            && (r.Threw? ==> StatusOf(r) == 500)
            && (r.Done? ==>
                  && r.status == 200
                  && r.data.currentPage == page
                  && r.data.totalPosts == |Matching(store.posts, ListFilter(principal, q), hits)|
                  && r.data.totalPages == TotalPages(r.data.totalPosts, limit)
                  && r.data.posts == Window(Listed(store, principal, q, hits), Skip(page, limit), limit))
    ensures var page := GetOr(q.page, DefaultPage);
            var limit := GetOr(q.limit, DefaultLimit);
            var xs := Listed(store, principal, q, hits);
            r.Done? && limit > 0 ==>
              && page >= 1
              && r.data.posts == xs[Min(Skip(page, limit), |xs|)..Min(Skip(page, limit) + limit, |xs|)]
    ensures r.Done? ==>
              forall k :: 0 <= k < |r.data.posts| ==>
                && Matches(r.data.posts[k], ListFilter(principal, q), hits)
                && r.data.posts[k] in store.posts
  {
    var page := GetOr(q.page, DefaultPage);
    var limit := GetOr(q.limit, DefaultLimit);
    var skip := Skip(page, limit);
    if SearchRejected(q, compiles) then
      Threw(LibraryError(RegexSyntaxError, []))
    else if skip < 0 then
      Threw(LibraryError("skip value must be non-negative", []))
    else
      var total := |Matching(store.posts, ListFilter(principal, q), hits)|;
      var window := ListPage(store, principal, q, hits, skip, limit);
      Done(200, Listing(window, page, TotalPages(total, limit), total), "Posts fetched successfully")
  }

  /** `.skip(skip).limit(limit)` over the ordered matching posts: each post
      on the page matches and comes from the collection. */
  function ListPage(store: PostStore, principal: UserId, q: ListQuery, hits: Post -> bool, skip: nat, limit: int)
    : (r: seq<Post>)
    ensures r == Window(Listed(store, principal, q, hits), skip, limit)
    ensures forall k :: 0 <= k < |r| ==> Matches(r[k], ListFilter(principal, q), hits) && r[k] in store.posts
  {
    var listed := Listed(store, principal, q, hits);
    var r := Window(listed, skip, limit);
    ListedFromStore(store, principal, q, hits);
    WindowWithin(listed, skip, limit);
    r
  }

  /** Every listed post matches the filter and comes from the collection. */
  lemma ListedFromStore(store: PostStore, principal: UserId, q: ListQuery, hits: Post -> bool)
    ensures forall x :: x in Listed(store, principal, q, hits) ==> Matches(x, ListFilter(principal, q), hits) && x in store.posts
  {
    var listed := Listed(store, principal, q, hits);
    var m := Matching(store.posts, ListFilter(principal, q), hits);
    forall x | x in listed
      ensures Matches(x, ListFilter(principal, q), hits) && x in store.posts
    {
      assert multiset(listed)[x] > 0;
      assert multiset(m)[x] > 0;
    }
  }

  /** Fetching page `i` of a listing, as a client walking the pages does. */
  function PageFetcher(store: PostStore, principal: UserId, q: ListQuery, hits: Post -> bool, compiles: bool)
    : nat -> seq<Post>
  {
    i => var r := GetMyPosts(store, principal, q.(page := Some(i)), hits, compiles);
         if r.Done? then r.data.posts else []
  }

  /** Walking pages 1 to `totalPages` of `getMyPosts` returns every matching
      post exactly as often as it is stored, in the requested order. */
  lemma MyPostsCoverAll(store: PostStore, principal: UserId, q: ListQuery, hits: Post -> bool, compiles: bool)
    requires GetOr(q.limit, DefaultLimit) > 0 && !SearchRejected(q, compiles)
    ensures var limit := GetOr(q.limit, DefaultLimit);
            var total := |Matching(store.posts, ListFilter(principal, q), hits)|;
            var all := Fetched(PageFetcher(store, principal, q, hits, compiles), TotalPages(total, limit).value);
            && all == Listed(store, principal, q, hits)
            && multiset(all) == multiset(Matching(store.posts, ListFilter(principal, q), hits))
  {
    var limit := GetOr(q.limit, DefaultLimit);
    var listed := Listed(store, principal, q, hits);
    var fetch := PageFetcher(store, principal, q, hits, compiles);
    var n := TotalPages(|listed|, limit).value;
    forall i | 1 <= i <= n
      ensures fetch(i) == Window(listed, Skip(i, limit), limit)
    {
      MyPageIsWindow(store, principal, q, hits, compiles, i);
    }
    FetchedArePages(fetch, listed, limit, n);
    PagesCoverAll(listed, limit);
  }

  /** Page `n` of `getMyPosts` is the `n`-th window of the ordered matching posts. */
  lemma MyPageIsWindow(store: PostStore, principal: UserId, q: ListQuery, hits: Post -> bool, compiles: bool, n: nat)
    requires GetOr(q.limit, DefaultLimit) > 0 && !SearchRejected(q, compiles) && n > 0
    ensures var r := GetMyPosts(store, principal, q.(page := Some(n)), hits, compiles);
            && r.Done?
            && r.data.posts == Window(Listed(store, principal, q, hits), Skip(n, GetOr(q.limit, DefaultLimit)), GetOr(q.limit, DefaultLimit))
  {
    assert ListFilter(principal, q.(page := Some(n))) == ListFilter(principal, q);
  }

  /** `getPostById`: the principal's post with that id, or 404 when it is
      missing or written by someone else. */
  function GetPostById(store: PostStore, principal: UserId, id: PostId): (r: Outcome<Post>)
    ensures r.Done? <==> exists k :: 0 <= k < |store.posts| && store.posts[k].id == id && store.posts[k].author == principal
    ensures r.Done? ==> r.status == 200 && r.data in store.posts && r.data.id == id && r.data.author == principal
    ensures r.Threw? ==> r.error == ApiError(404, PostNotFound)
  {
    match FindOwned(store.posts, principal, id)
    case None => Threw(ApiError(404, PostNotFound))
    case Some(k) => Done(200, store.posts[k], "Post fetched successfully")
  }

  /** The `$set` document of an update: one entry per provided field. */
  datatype Patch = Patch(
    title: Option<string>,
    content: Option<string>,
    status: Option<string>,
    tags: Option<seq<string>>,
    image: Option<string>)

  /** `Object.keys(updateFields).length`: how many fields the update sets. */
  function KeyCount(u: Patch): (n: nat)
    ensures n <= 5
  {
    (if u.title.Some? then 1 else 0) + (if u.content.Some? then 1 else 0) + (if u.status.Some? then 1 else 0)
    + (if u.tags.Some? then 1 else 0) + (if u.image.Some? then 1 else 0)
  }

  /** `Object.keys(updateFields).length === 0`: the update sets no field. */
  predicate EmptyPatch(u: Patch)
    ensures EmptyPatch(u) <==> u.title.None? && u.content.None? && u.status.None? && u.tags.None? && u.image.None?
  {
    KeyCount(u) == 0
  }

  /** The tags an update sets: `None` inside when the field is absent or an
      empty string; an outer `None` when `JSON.parse` throws. */
  function UpdateTags(t: TagsField): (r: Option<Option<seq<string>>>)
    ensures r.None? <==> t.TagText? && t.text != [] && t.parsed.None?
    ensures r == Some(None) <==> t.NoTags? || (t.TagText? && t.text == [])
  {
    match t
    case NoTags => Some(None)
    case TagArray(xs) => Some(Some(xs))
    case TagText(text, parsed) =>
      if text == [] then Some(None)
      else if parsed.None? then None
      else Some(Some(parsed.value))
  }

  /** Casting an update runs the trimming setters on the paths it sets. */
  function CastPatch(u: Patch): (v: Patch)
    ensures v.status == u.status && v.image == u.image
    ensures v.title.Some? <==> u.title.Some?
    ensures v.title.Some? ==> v.title.value == Trim(u.title.value)
    ensures v.content.Some? <==> u.content.Some?
    ensures v.content.Some? ==> v.content.value == Trim(u.content.value)
    ensures v.tags.Some? <==> u.tags.Some?
    ensures v.tags.Some? ==> v.tags.value == TrimAll(u.tags.value)
  {
    u.(title := if u.title.Some? then Some(Trim(u.title.value)) else None,
       content := if u.content.Some? then Some(Trim(u.content.value)) else None,
       tags := if u.tags.Some? then Some(TrimAll(u.tags.value)) else None)
  }

  /** Update validators: only the paths being set are checked. */
  function PatchErrors(u: Patch): (errs: seq<string>)
    ensures errs == [] <==>
              && (u.title.Some? ==> TitleAllowed(u.title.value))
              && (u.content.Some? ==> ContentAllowed(u.content.value))
              && (u.status.Some? ==> StatusAllowed(u.status.value))
  {
    (if u.title.Some? && !TitleAllowed(u.title.value) then ["title"] else [])
    + (if u.content.Some? && !ContentAllowed(u.content.value) then ["content"] else [])
    + (if u.status.Some? && !StatusAllowed(u.status.value) then ["status"] else [])
  }

  /** `$set`: the fields the patch names take its values; the rest stay. */
  function ApplyPatch(p: Post, u: Patch): (r: Post)
    ensures r.id == p.id && r.author == p.author
    ensures u.title.Some? ==> r.title == u.title.value
    ensures u.title.None? ==> r.title == p.title
    ensures u.content.Some? ==> r.content == u.content.value
    ensures u.content.None? ==> r.content == p.content
    ensures u.image.Some? ==> r.image == u.image.value
    ensures u.image.None? ==> r.image == p.image
    ensures u.tags.Some? ==> r.tags == u.tags.value
    ensures u.tags.None? ==> r.tags == p.tags
    ensures u.status.Some? ==> r.status == u.status.value
    ensures u.status.None? ==> r.status == p.status
    ensures EmptyPatch(u) ==> r == p
  {
    Post(p.id,
         GetOr(u.title, p.title),
         GetOr(u.content, p.content),
         GetOr(u.image, p.image),
         GetOr(u.tags, p.tags),
         GetOr(u.status, p.status),
         p.author)
  }

  /** A validated, cast patch keeps a stored post valid. */
  lemma PatchKeepsValid(p: Post, u: Patch)
    requires ValidPost(p)
    requires PatchErrors(CastPatch(u)) == []
    ensures ValidPost(ApplyPatch(p, CastPatch(u)))
  {
    var v := CastPatch(u);
    if u.tags.Some? {
      assert forall k :: 0 <= k < |v.tags.value| ==> IsTrimmed(v.tags.value[k]);
    }
  }

  /** The `$set` document `updatePost` builds: each truthy field, title and
      content trimmed, the parsed tags, and the uploaded image's URL. */
  function BuildPatch(title: Option<string>, content: Option<string>, status: Option<string>,
                      tags: Option<seq<string>>, image: Attachment): (u: Patch)
    ensures u.title.Some? <==> Truthy(title)
    ensures u.title.Some? ==> u.title.value == Trim(title.value)
    ensures u.content.Some? <==> Truthy(content)
    ensures u.content.Some? ==> u.content.value == Trim(content.value)
    ensures u.status.Some? <==> Truthy(status)
    ensures u.status.Some? ==> u.status.value == status.value
    ensures u.tags == tags && u.image == UploadedUrl(image)
  {
    Patch(
      if Truthy(title) then Some(Trim(title.value)) else None,
      if Truthy(content) then Some(Trim(content.value)) else None,
      if Truthy(status) then Some(status.value) else None,
      tags,
      UploadedUrl(image))
  }

  /** Casting a patch the controller built changes only the tags: title and
      content were trimmed already. */
  lemma CastBuiltPatch(title: Option<string>, content: Option<string>, status: Option<string>,
                       tags: Option<seq<string>>, image: Attachment)
    ensures var u := BuildPatch(title, content, status, tags, image);
            CastPatch(u) == u.(tags := if tags.Some? then Some(TrimAll(tags.value)) else None)
  {
    var u := BuildPatch(title, content, status, tags, image);
    var v := CastPatch(u);
    if Truthy(title) { TrimIdempotent(title.value); }
    assert v.title == u.title;
    if Truthy(content) { TrimIdempotent(content.value); }
    assert v.content == u.content;
  }

  /** `findOneAndUpdate({ _id: id, author: principal }, { $set }, { runValidators })`:
      the update validators run first, then the principal's post is updated. */
  function WriteUpdate(store: PostStore, principal: UserId, id: PostId, u: Patch): (r: PostStep<Post>)
    ensures r.out.Threw? ==> r.store == store
    ensures r.out.Done? <==> PatchErrors(CastPatch(u)) == [] && FindOwned(store.posts, principal, id).Some?
    ensures PatchErrors(CastPatch(u)) == [] && FindOwned(store.posts, principal, id).None? ==>
              r.out == Threw(ApiError(404, PostNotFound))
    ensures PatchErrors(CastPatch(u)) != [] ==> r.out.Threw? && StatusOf(r.out) == 500
    ensures r.out.Done? ==>
              && var k := FindOwned(store.posts, principal, id).value;
                 && r.out.status == 200
                 && r.out.data == ApplyPatch(store.posts[k], CastPatch(u))
                 && r.store == store.(posts := store.posts[k := r.out.data])
                 && (ValidPost(store.posts[k]) ==> ValidPost(r.out.data))
  {
    var v := CastPatch(u);
    var errs := PatchErrors(v);
    if errs != [] then
      PostStep(Threw(LibraryError(ValidationFailed, errs)), store)
    else
      match FindOwned(store.posts, principal, id)
      case None => PostStep(Threw(ApiError(404, PostNotFound)), store)
      case Some(k) =>
        var updated := ApplyPatch(store.posts[k], v);
        assert ValidPost(store.posts[k]) ==> ValidPost(updated) by {
          if ValidPost(store.posts[k]) { PatchKeepsValid(store.posts[k], u); }
        }
        PostStep(Done(200, updated, "Post updated successfully"), store.(posts := store.posts[k := updated]))
  }

  /** The principal's post with that id, before a change. */
  function Owned(store: PostStore, principal: UserId, id: PostId): Post
    requires FindOwned(store.posts, principal, id).Some?
  {
    store.posts[FindOwned(store.posts, principal, id).value]
  }

  /** `updatePost`: build the `$set` document from the truthy fields, refuse an
      unparsable tag string or an empty update with 400, validate the paths
      being set, then update the principal's post or answer 404. */
  function UpdatePost(store: PostStore, principal: UserId, id: PostId, title: Option<string>,
                      content: Option<string>, tags: TagsField, status: Option<string>,
                      image: Attachment): (r: PostStep<Post>)
    ensures r.out.Threw? ==> r.store == store
    ensures UpdateTags(tags).None? ==> r.out == Threw(ApiError(400, InvalidTags))
    ensures (UpdateTags(tags) == Some(None) && !Truthy(title) && !Truthy(content) && !Truthy(status)
             && image.NoFile?) ==> r.out == Threw(ApiError(400, NoFieldsProvided))
    ensures UpdateTags(tags).Some? && UploadFailed(image) ==> r.out == Threw(ApiError(500, ImageUploadFailed))
    ensures (UpdateTags(tags).Some? && !UploadFailed(image)
             && !EmptyPatch(BuildPatch(title, content, status, UpdateTags(tags).value, image))
             && PatchErrors(CastPatch(BuildPatch(title, content, status, UpdateTags(tags).value, image))) != [])
            ==> r.out.Threw? && StatusOf(r.out) == 500
    ensures r.out.Done? <==>
              && UpdateTags(tags).Some?
              && !UploadFailed(image)
              && !EmptyPatch(BuildPatch(title, content, status, UpdateTags(tags).value, image))
              && PatchErrors(CastPatch(BuildPatch(title, content, status, UpdateTags(tags).value, image))) == []
              && FindOwned(store.posts, principal, id).Some?
    ensures r.out.Threw? && r.out.error == ApiError(404, PostNotFound) ==>
              FindOwned(store.posts, principal, id).None?
    ensures r.out.Done? ==>
              && FindOwned(store.posts, principal, id).Some?
              && r.out.status == 200
              && r.store == store.(posts := store.posts[FindOwned(store.posts, principal, id).value := r.out.data])
              && r.out.data.id == id && r.out.data.author == principal
    ensures r.out.Done? ==>
              && UpdateTags(tags).Some?
              && r.out.data == ApplyPatch(Owned(store, principal, id),
                                          CastPatch(BuildPatch(title, content, status, UpdateTags(tags).value, image)))
    ensures r.out.Done? && ValidPost(Owned(store, principal, id)) ==> ValidPost(r.out.data)
  {
    match UpdateTags(tags)
    case None => PostStep(Threw(ApiError(400, InvalidTags)), store)
    case Some(newTags) =>
      if UploadFailed(image) then
        PostStep(Threw(ApiError(500, ImageUploadFailed)), store)
      else
        var u := BuildPatch(title, content, status, newTags, image);
        if EmptyPatch(u) then
          PostStep(Threw(ApiError(400, NoFieldsProvided)), store)
        else
          WriteUpdate(store, principal, id, u)
  }

  /** A successful update sets each provided field, trimmed where the schema
      trims, and leaves every other field of the post as it was. */
  lemma UpdateChangesOnlyGivenFields(store: PostStore, principal: UserId, id: PostId, title: Option<string>,
                                     content: Option<string>, tags: TagsField, status: Option<string>,
                                     image: Attachment)
    requires UpdatePost(store, principal, id, title, content, tags, status, image).out.Done?
    ensures var r := UpdatePost(store, principal, id, title, content, tags, status, image);
            var old_ := Owned(store, principal, id);
            var new_ := r.out.data;
            && new_.id == old_.id && new_.author == old_.author
            && new_.title == (if Truthy(title) then Trim(title.value) else old_.title)
            && new_.content == (if Truthy(content) then Trim(content.value) else old_.content)
            && new_.status == (if Truthy(status) then status.value else old_.status)
            && new_.image == (if UploadedUrl(image).Some? then UploadedUrl(image).value else old_.image)
            && new_.tags == (if UpdateTags(tags).value.Some? then TrimAll(UpdateTags(tags).value.value)
                             else old_.tags)
  {
    CastBuiltPatch(title, content, status, UpdateTags(tags).value, image);
  }

  /** `deletePost`: remove the principal's post with that id, or answer 404. */
  function DeletePost(store: PostStore, principal: UserId, id: PostId): (r: PostStep<()>)
    ensures r.out.Done? <==> FindOwned(store.posts, principal, id).Some?
    ensures r.out.Threw? ==> r.out.error == ApiError(404, PostNotFound) && r.store == store
    ensures r.out.Done? ==>
              && var k := FindOwned(store.posts, principal, id).value;
                 && r.out.status == 200
                 && r.store.posts == RemoveAt(store.posts, k) && r.store.nextId == store.nextId
  {
    match FindOwned(store.posts, principal, id)
    case None => PostStep(Threw(ApiError(404, PostNotFound)), store)
    case Some(k) =>
      PostStep(Done(200, (), "Post deleted successfully"), PostStore(RemoveAt(store.posts, k), store.nextId))
  }

  /** `xs` without its entry at `k`: the entries before it keep their places,
      and the ones after it move down by one. */
  function RemoveAt<T>(xs: seq<T>, k: nat): (r: seq<T>)
    requires k < |xs|
    ensures |r| == |xs| - 1
    ensures forall m :: 0 <= m < k ==> r[m] == xs[m]
    ensures forall m :: k <= m < |r| ==> r[m] == xs[m + 1]
  {
    xs[..k] + xs[k + 1..]
  }

  /** Once title and content are present, every failure of `createPost` is a
      500: a failed upload, unparsable tags, and a schema rejection, which
      Mongoose throws without a status code. */
  lemma CreateFailsWith500(store: PostStore, principal: UserId, title: Option<string>, content: Option<string>,
                           tags: TagsField, status: Option<string>, image: Attachment)
    ensures var r := CreatePost(store, principal, title, content, tags, status, image);
            r.out.Threw? ==> (StatusOf(r.out) == 400 <==> !Truthy(title) || !Truthy(content))
                             && (Truthy(title) && Truthy(content) ==> StatusOf(r.out) == 500)
  {
    var r := CreatePost(store, principal, title, content, tags, status, image);
    if r.out.Threw? && Truthy(title) && Truthy(content) && !UploadFailed(image) && CreateTags(tags).Some? {
      var doc := Post(store.nextId, Trim(title.value), Trim(content.value), ImageOrDefault(image),
                      CreateTags(tags).value, StatusOrDefault(status), principal);
      assert r == StoreNew(store, doc);
    }
  }

  /** Creating a post keeps the collection well formed. */
  lemma CreateKeepsWellFormed(store: PostStore, principal: UserId, title: Option<string>, content: Option<string>,
                              tags: TagsField, status: Option<string>, image: Attachment)
    requires WellFormed(store)
    ensures WellFormed(CreatePost(store, principal, title, content, tags, status, image).store)
  {
    var r := CreatePost(store, principal, title, content, tags, status, image);
    if r.out.Done? {
      AppendKeepsWellFormed(store, r.out.data);
    }
  }

  /** Appending a valid post under the next fresh id keeps the collection well formed. */
  lemma AppendKeepsWellFormed(store: PostStore, p: Post)
    requires WellFormed(store) && p.id == store.nextId && ValidPost(p)
    ensures WellFormed(PostStore(store.posts + [p], store.nextId + 1))
  {
    var posts := store.posts + [p];
    assert forall k :: 0 <= k < |store.posts| ==> posts[k] == store.posts[k];
  }

  /** Updating a post keeps the collection well formed. */
  lemma UpdateKeepsWellFormed(store: PostStore, principal: UserId, id: PostId, title: Option<string>,
                              content: Option<string>, tags: TagsField, status: Option<string>, image: Attachment)
    requires WellFormed(store)
    ensures WellFormed(UpdatePost(store, principal, id, title, content, tags, status, image).store)
  {
    var r := UpdatePost(store, principal, id, title, content, tags, status, image);
    if r.out.Done? {
      var k := FindOwned(store.posts, principal, id).value;
      assert r.store.posts == store.posts[k := r.out.data];
      assert r.out.data.id == store.posts[k].id;
    }
  }

  /** Deleting a post keeps the collection well formed. */
  lemma DeleteKeepsWellFormed(store: PostStore, principal: UserId, id: PostId)
    requires WellFormed(store)
    ensures WellFormed(DeletePost(store, principal, id).store)
  {
    var r := DeletePost(store, principal, id);
    if r.out.Done? {
      var k := FindOwned(store.posts, principal, id).value;
      RemoveAtKeepsAll(store.posts, k, ValidPost);
      RemoveAtKeepsAll(store.posts, k, (p: Post) => p.id < store.nextId);
      RemoveAtKeepsDistinct(store.posts, k, (p: Post) => p.id);
    }
  }

  /** The position in the original sequence of entry `m` after removing `k`. */
  function Skipping(m: nat, k: nat): nat
  {
    if m < k then m else m + 1
  }

  /** Removing an entry keeps a property every entry has. */
  lemma RemoveAtKeepsAll<T>(xs: seq<T>, k: nat, P: T -> bool)
    requires k < |xs|
    requires forall m :: 0 <= m < |xs| ==> P(xs[m])
    ensures forall m :: 0 <= m < |xs| - 1 ==> P(RemoveAt(xs, k)[m])
  {
    var r := RemoveAt(xs, k);
    forall m | 0 <= m < |r|
      ensures P(r[m])
    {
      assert r[m] == xs[Skipping(m, k)];
    }
  }

  /** Removing an entry keeps keys that were pairwise distinct distinct. */
  lemma RemoveAtKeepsDistinct<T>(xs: seq<T>, k: nat, key: T -> int)
    requires k < |xs|
    requires forall i, j :: 0 <= i < j < |xs| ==> key(xs[i]) != key(xs[j])
    ensures forall i, j :: 0 <= i < j < |xs| - 1 ==> key(RemoveAt(xs, k)[i]) != key(RemoveAt(xs, k)[j])
  {
    var r := RemoveAt(xs, k);
    forall i, j | 0 <= i < j < |r|
      ensures key(r[i]) != key(r[j])
    {
      assert r[i] == xs[Skipping(i, k)] && r[j] == xs[Skipping(j, k)];
    }
  }

  /** Deleting removes exactly the matched post: every other post stays, and
      afterwards the principal's post with that id is gone. */
  lemma DeleteRemovesExactly(store: PostStore, principal: UserId, id: PostId)
    requires DistinctIds(store.posts)
    requires DeletePost(store, principal, id).out.Done?
    ensures var after := DeletePost(store, principal, id).store;
            && |after.posts| == |store.posts| - 1
            && (forall p :: p in after.posts <==> p in store.posts && p.id != id)
            && GetPostById(after, principal, id) == Threw(ApiError(404, PostNotFound))
  {
    var k := FindOwned(store.posts, principal, id).value;
    RemoveAtMembers(store.posts, k);
    RemoveAtDropsId(store.posts, k);
  }

  /** What remains after removing entry `k` is everything else in `xs`. */
  lemma RemoveAtMembers<T>(xs: seq<T>, k: nat)
    requires k < |xs|
    ensures forall x :: x in RemoveAt(xs, k) ==> x in xs
    ensures forall x :: x in xs && x != xs[k] ==> x in RemoveAt(xs, k)
  {
    var r := RemoveAt(xs, k);
    forall x | x in r
      ensures x in xs
    {
      var m :| 0 <= m < |r| && r[m] == x;
      assert xs[Skipping(m, k)] == x;
    }
    forall x | x in xs && x != xs[k]
      ensures x in r
    {
      var m :| 0 <= m < |xs| && xs[m] == x;
      assert r[if m < k then m else m - 1] == x;
    }
  }

  /** With distinct ids, no post left after removing entry `k` has its id. */
  lemma RemoveAtDropsId(posts: seq<Post>, k: nat)
    requires k < |posts| && DistinctIds(posts)
    ensures forall p :: p in RemoveAt(posts, k) ==> p.id != posts[k].id
  {
    var r := RemoveAt(posts, k);
    forall p | p in r
      ensures p.id != posts[k].id
    {
      var m :| 0 <= m < |r| && r[m] == p;
      var n := Skipping(m, k);
      assert posts[n] == p && n != k;
    }
  }

  /** A post written by someone else is out of reach: reading and deleting it
      answer 404, and no update of it succeeds; the collection stays as it is. */
  lemma OthersPostsUntouched(store: PostStore, principal: UserId, id: PostId, title: Option<string>,
                             content: Option<string>, tags: TagsField, status: Option<string>, image: Attachment)
    requires forall k :: 0 <= k < |store.posts| && store.posts[k].id == id ==> store.posts[k].author != principal
    ensures GetPostById(store, principal, id) == Threw(ApiError(404, PostNotFound))
    ensures DeletePost(store, principal, id) == PostStep(Threw(ApiError(404, PostNotFound)), store)
    ensures UpdatePost(store, principal, id, title, content, tags, status, image).out.Threw?
    ensures UpdatePost(store, principal, id, title, content, tags, status, image).store == store
  {
  }
}

=== FILE: post_model.dfy ===
/** The post schema (server/src/models/post.model.js): field defaults, the
    setters applied when a document or an update is cast, and the validators
    run before anything is written. */
module PostModel {
  import opened Api
  import opened Text
  import opened Tokens

  type PostId = nat

  const Draft: string := "draft"
  const Published: string := "published"
  const DefaultStatus: string := Published
  const DefaultImage: string := ""
  const MaxTitleLength: nat := 200

  datatype Post = Post(
    id: PostId,
    title: string,
    content: string,
    image: string,
    tags: seq<string>,
    status: string,
    author: UserId)

  /** The `enum` validator on `status`. */
  predicate StatusAllowed(status: string)
  {
    status == Draft || status == Published
  }

  /** The `required` and `maxlength` validators on `title`: a non-empty string
      of at most 200 UTF-16 code units. */
  predicate TitleAllowed(title: string)
  {
    title != [] && Utf16Length(title) <= MaxTitleLength
  }

  /** The `required` validator on `content`. */
  predicate ContentAllowed(content: string)
  {
    content != []
  }

  /** The paths whose validators reject the document, in schema order. */
  function ValidationErrors(p: Post): (errs: seq<string>)
    ensures errs == [] <==> TitleAllowed(p.title) && ContentAllowed(p.content) && StatusAllowed(p.status)
    ensures "title" in errs <==> !TitleAllowed(p.title)
    ensures "content" in errs <==> !ContentAllowed(p.content)
    ensures "status" in errs <==> !StatusAllowed(p.status)
  {
    (if TitleAllowed(p.title) then [] else ["title"])
    + (if ContentAllowed(p.content) then [] else ["content"])
    + (if StatusAllowed(p.status) then [] else ["status"])
  }

  /** The `trim: true` setters: title, content and every tag are stored trimmed. */
  function ApplySetters(p: Post): (q: Post)
    ensures q.id == p.id && q.image == p.image && q.status == p.status && q.author == p.author
    ensures q.title == Trim(p.title) && q.content == Trim(p.content)
    ensures q.tags == TrimAll(p.tags)
  {
    p.(title := Trim(p.title), content := Trim(p.content), tags := TrimAll(p.tags))
  }

  /** Every tag is stored without surrounding whitespace. */
  predicate TagsTrimmed(tags: seq<string>)
  {
    forall k :: 0 <= k < |tags| ==> IsTrimmed(tags[k])
  }

  /** What every stored post satisfies: it passed the validators after the
      setters ran. `author` is required and is always present in this type. */
  predicate ValidPost(p: Post)
  {
    && TitleAllowed(p.title) && IsTrimmed(p.title)
    && ContentAllowed(p.content) && IsTrimmed(p.content)
    && TagsTrimmed(p.tags)
    && StatusAllowed(p.status)
  }

  /** The setters leave a document unchanged exactly when its title, content
      and every tag are already trimmed. */
  lemma SettersFixIffTrimmed(p: Post)
    ensures ApplySetters(p) == p <==> IsTrimmed(p.title) && IsTrimmed(p.content) && TagsTrimmed(p.tags)
  {
    TrimFixedIff(p.title);
    TrimFixedIff(p.content);
    TrimAllFixedIff(p.tags);
    var q := ApplySetters(p);
    assert q.title == Trim(p.title) && q.content == Trim(p.content) && q.tags == TrimAll(p.tags);
    assert q == p <==> q.title == p.title && q.content == p.content && q.tags == p.tags;
  }

  /** A string is its own trim exactly when it has no whitespace at its ends. */
  lemma TrimFixedIff(s: string)
    ensures Trim(s) == s <==> IsTrimmed(s)
  {
    if IsTrimmed(s) {
      TrimOfTrimmed(s);
    }
  }

  /** Trimming leaves tags unchanged exactly when every tag is trimmed. */
  lemma TrimAllFixedIff(tags: seq<string>)
    ensures TrimAll(tags) == tags <==> TagsTrimmed(tags)
  {
    if TagsTrimmed(tags) {
      TrimAllOfTrimmed(tags);
    }
    if TrimAll(tags) == tags {
      FixedTagsTrimmed(tags);
    }
  }

  /** A post is valid exactly when it passes the validators and the setters
      leave it unchanged, that is, when it is what a successful cast stores. */
  lemma ValidPostCharacterised(p: Post)
    ensures ValidPost(p) <==> ValidationErrors(p) == [] && ApplySetters(p) == p
  {
    SettersFixIffTrimmed(p);
  }

  /** Tags that trimming leaves unchanged are trimmed. */
  lemma FixedTagsTrimmed(tags: seq<string>)
    requires TrimAll(tags) == tags
    ensures TagsTrimmed(tags)
  {
    forall k | 0 <= k < |tags|
      ensures IsTrimmed(tags[k])
    {
      assert tags[k] == Trim(tags[k]);
    }
  }

  /** Casting then validating, as `Post.create` and a validated update do:
      the document that would be written, or the paths that failed. */
  function CastAndValidate(p: Post): (r: Result)
    ensures r.Accepted? ==> r.post == ApplySetters(p) && ValidPost(r.post)
    ensures r.Rejected? <==> ValidationErrors(ApplySetters(p)) != []
    ensures r.Rejected? ==> r.paths == ValidationErrors(ApplySetters(p))
  {
    var q := ApplySetters(p);
    var errs := ValidationErrors(q);
    if errs == [] then Accepted(q) else Rejected(errs)
  }

  datatype Result = Accepted(post: Post) | Rejected(paths: seq<string>)

  /** Trimming tags that are already trimmed changes nothing. */
  lemma TrimAllOfTrimmed(tags: seq<string>)
    requires TagsTrimmed(tags)
    ensures TrimAll(tags) == tags
  {
    forall k | 0 <= k < |tags|
      ensures TrimAll(tags)[k] == tags[k]
    {
      TrimOfTrimmed(tags[k]);
    }
  }

  /** Casting is idempotent on a stored post: a valid post is its own cast. */
  lemma ValidPostIsFixedPoint(p: Post)
    requires ValidPost(p)
    ensures ApplySetters(p) == p
  {
    TrimOfTrimmed(p.title);
    TrimOfTrimmed(p.content);
    TrimAllOfTrimmed(p.tags);
  }

  /** A stored post passes validation again unchanged. */
  lemma ValidPostRevalidates(p: Post)
    requires ValidPost(p)
    ensures CastAndValidate(p) == Accepted(p)
  {
    ValidPostIsFixedPoint(p);
  }

  /** Casting a document whose title and content are already trimmed only
      trims its tags; it is accepted exactly when those fields and the status
      pass their validators. */
  lemma CastTrimmed(p: Post)
    requires IsTrimmed(p.title) && IsTrimmed(p.content)
    ensures CastAndValidate(p).Accepted? <==>
              TitleAllowed(p.title) && ContentAllowed(p.content) && StatusAllowed(p.status)
    ensures CastAndValidate(p).Accepted? ==> CastAndValidate(p).post == p.(tags := TrimAll(p.tags))
  {
    SettersOnTrimmed(p);
  }

  /** With title and content already trimmed, the setters only trim the tags. */
  lemma SettersOnTrimmed(p: Post)
    requires IsTrimmed(p.title) && IsTrimmed(p.content)
    ensures ApplySetters(p) == p.(tags := TrimAll(p.tags))
  {
    TrimOfTrimmed(p.title);
    TrimOfTrimmed(p.content);
  }

  /** The message mongoose reports for a failed validation. */
  const ValidationFailed: string := "Post validation failed"
}

=== FILE: sessions.dfy ===
/** Properties of the per-account refresh-token state machine that relate
    several requests: rotation defeats replay, logout and login revoke, and a
    token once superseded never becomes valid again while the clock has moved on.

    Whether a newly minted token differs from the stored one is not something
    the controller ensures: under the token encoding assumed in `Tokens`, a
    token minted for the same user in the same second is the same token. Every
    property below that depends on it says so in its `requires`
    (`now != T.issuedAt`), and `SameSecondReplay` shows the requirement cannot
    be dropped. */
module Sessions {
  import opened Api
  import opened Tokens
  import opened Users

  /** `T` is the refresh token currently stored for its subject. */
  predicate Holds(users: seq<User>, T: Token)
  {
    T.subject < |users| && users[T.subject].refreshToken == Some(T)
  }

  /** A refresh presenting `T` in the body, with no cookie. */
  function RefreshWith(users: seq<User>, cfg: Config, now: int, T: Token): Step<TokenPair>
  {
    RefreshAccessToken(users, cfg, now, None, Some(Jwt(T)))
  }

  /** Only the stored token can be accepted. */
  lemma AcceptedOnlyIfHeld(users: seq<User>, cfg: Config, now: int, T: Token)
    ensures RefreshWith(users, cfg, now, T).out.Done? <==> Holds(users, T) && T.kind == Refresh && now < T.expiresAt
  {
  }

  /** Rotation: after a refresh with `T1` succeeds at `t1` and yields `T2`,
      presenting `T1` again fails with 401, and `T2` is accepted until it expires. */
  lemma RotationDefeatsReplay(users: seq<User>, cfg: Config, t1: int, t2: int, T1: Token)
    requires RefreshWith(users, cfg, t1, T1).out.Done?
    requires T1.issuedAt != t1
    ensures var r1 := RefreshWith(users, cfg, t1, T1);
            var T2 := r1.out.data.refreshToken;
            && r1.users[T1.subject].refreshToken == Some(T2)
            && !Holds(r1.users, T1)
            && RefreshWith(r1.users, cfg, t2, T1).out.Threw?
            && StatusOf(RefreshWith(r1.users, cfg, t2, T1).out) == 401
            && RefreshWith(r1.users, cfg, t2, T2).out.Done? == (t2 < t1 + cfg.refreshTtl)
  {
    var r1 := RefreshWith(users, cfg, t1, T1);
    var T2 := r1.out.data.refreshToken;
    assert T2.issuedAt == t1;
    assert Holds(r1.users, T2);
    AcceptedOnlyIfHeld(r1.users, cfg, t2, T1);
    AcceptedOnlyIfHeld(r1.users, cfg, t2, T2);
  }

  /** Without fresh tokens rotation does not defeat replay: a token minted and
      presented within the same second is replaced by itself and stays valid. */
  lemma SameSecondReplay()
    ensures var cfg := Config(60, 600);
            var T1 := Mint(Refresh, 0, 5, 600);
            var users := [User("A", "a@x.com", Password("Secret123"), "", "", Some(T1))];
            var r1 := RefreshWith(users, cfg, 5, T1);
            && r1.out.Done?
            && RefreshWith(r1.users, cfg, 5, T1).out.Done?
  {
  }

  /** Logout revokes: afterwards no token naming the principal is accepted,
      and every other record is as it was. */
  lemma LogoutRevokes(users: seq<User>, cfg: Config, principal: UserId, now: int, T: Token)
    requires T.subject == principal
    ensures var after := Logout(users, principal).users;
            && !Holds(after, T)
            && RefreshWith(after, cfg, now, T).out.Threw?
            && StatusOf(RefreshWith(after, cfg, now, T).out) == 401
  {
  }

  /** Login always wins: afterwards the only accepted token for that account is
      the one it returned. */
  lemma LoginSupersedes(users: seq<User>, cfg: Config, now: int, later: int,
                        email: string, password: string, T: Token)
    requires Login(users, cfg, now, Some(email), Some(password)).out.Done?
    requires T.subject == FindByEmail(users, email).value
    requires T != Login(users, cfg, now, Some(email), Some(password)).out.data.refreshToken
    ensures RefreshWith(Login(users, cfg, now, Some(email), Some(password)).users, cfg, later, T).out.Threw?
  {
  }

  /** One request to the user controller. */
  datatype Request =
    | RegisterRequest(fullName: Option<string>, email: Option<string>, password: Option<string>, avatar: Attachment)
    | LoginRequest(email: Option<string>, password: Option<string>)
    | LogoutRequest(principal: UserId)
    | RefreshRequest(cookie: Option<Wire>, body: Option<Wire>)
    | ProfileRequest(principal: UserId, fullName: Option<string>, bio: Option<string>, avatar: Attachment)

  /** A request and the second at which it is handled. */
  datatype Timed = Timed(now: int, request: Request)

  /** The user collection after handling `req` at `now`. */
  function Apply(users: seq<User>, cfg: Config, now: int, req: Request): seq<User>
  {
    match req
    case RegisterRequest(n, e, p, a) => Register(users, n, e, p, a).users
    case LoginRequest(e, p) => Login(users, cfg, now, e, p).users
    case LogoutRequest(u) => Logout(users, u).users
    case RefreshRequest(c, b) => RefreshAccessToken(users, cfg, now, c, b).users
    case ProfileRequest(u, n, b, a) => UpdateProfile(users, u, n, b, a).users
  }

  /** The user collection after handling a sequence of requests in order. */
  function Run(users: seq<User>, cfg: Config, trace: seq<Timed>): seq<User>
    decreases |trace|
  {
    if trace == [] then users
    else Run(Apply(users, cfg, trace[0].now, trace[0].request), cfg, trace[1..])
  }

  /** No request re-installs a token that is not stored, unless it mints at the
      very second that token was issued. */
  lemma StepNeverRestores(users: seq<User>, cfg: Config, now: int, req: Request, T: Token)
    requires !Holds(users, T)
    requires now != T.issuedAt
    ensures !Holds(Apply(users, cfg, now, req), T)
  {
    match req
    case RegisterRequest(n, e, p, a) => RegisterNeverRestores(users, n, e, p, a, T);
    case LoginRequest(e, p) => LoginNeverRestores(users, cfg, now, e, p, T);
    case LogoutRequest(u) => LogoutNeverRestores(users, u, T);
    case RefreshRequest(c, b) => RefreshNeverRestores(users, cfg, now, c, b, T);
    case ProfileRequest(u, n, b, a) => ProfileNeverRestores(users, u, n, b, a, T);
  }

  /** Registration stores no token; a new record starts without one. */
  lemma RegisterNeverRestores(users: seq<User>, n: Option<string>, e: Option<string>, p: Option<string>,
                              a: Attachment, T: Token)
    requires !Holds(users, T)
    ensures !Holds(Register(users, n, e, p, a).users, T)
  {
    var r := Register(users, n, e, p, a);
    if r.out.Done? && T.subject < |r.users| {
      assert T.subject == |users| || r.users[T.subject] == users[T.subject];
    }
  }

  /** Login stores only a token minted at `now`. */
  lemma LoginNeverRestores(users: seq<User>, cfg: Config, now: int, e: Option<string>, p: Option<string>, T: Token)
    requires !Holds(users, T) && now != T.issuedAt
    ensures !Holds(Login(users, cfg, now, e, p).users, T)
  {
  }

  /** Logout only unsets a token. */
  lemma LogoutNeverRestores(users: seq<User>, u: UserId, T: Token)
    requires !Holds(users, T)
    ensures !Holds(Logout(users, u).users, T)
  {
  }

  /** Refresh stores only a token minted at `now`. */
  lemma RefreshNeverRestores(users: seq<User>, cfg: Config, now: int, c: Option<Wire>, b: Option<Wire>, T: Token)
    requires !Holds(users, T) && now != T.issuedAt
    ensures !Holds(RefreshAccessToken(users, cfg, now, c, b).users, T)
  {
  }

  /** A profile update leaves every stored token as it was. */
  lemma ProfileNeverRestores(users: seq<User>, u: UserId, n: Option<string>, b: Option<string>,
                             a: Attachment, T: Token)
    requires !Holds(users, T)
    ensures !Holds(UpdateProfile(users, u, n, b, a).users, T)
  {
  }

  /** A superseded or revoked token stays invalid through any sequence of
      requests handled after the second it was issued. */
  lemma {:induction false} NoReplayAfterTrace(users: seq<User>, cfg: Config, trace: seq<Timed>, T: Token)
    requires !Holds(users, T)
    requires forall k :: 0 <= k < |trace| ==> trace[k].now != T.issuedAt
    ensures !Holds(Run(users, cfg, trace), T)
    decreases |trace|
  {
    if trace != [] {
      StepNeverRestores(users, cfg, trace[0].now, trace[0].request, T);
      var rest := trace[1..];
      assert forall k :: 0 <= k < |rest| ==> rest[k] == trace[k + 1];
      NoReplayAfterTrace(Apply(users, cfg, trace[0].now, trace[0].request), cfg, rest, T);
    }
  }

  /** The replay detector end to end: once rotated away or revoked, presenting
      the token fails with 401 at any later time. */
  lemma ReplayRejectedAfterTrace(users: seq<User>, cfg: Config, trace: seq<Timed>, T: Token, now: int)
    requires !Holds(users, T)
    requires forall k :: 0 <= k < |trace| ==> trace[k].now != T.issuedAt
    ensures RefreshWith(Run(users, cfg, trace), cfg, now, T).out.Threw?
    ensures StatusOf(RefreshWith(Run(users, cfg, trace), cfg, now, T).out) == 401
  {
    NoReplayAfterTrace(users, cfg, trace, T);
  }

  /** There is no way into an active session except through login: an account
      with no stored token still has none after any other request. */
  lemma SessionOnlyFromLogin(users: seq<User>, cfg: Config, now: int, req: Request, id: UserId)
    requires id < |users| && users[id].refreshToken.None?
    requires !req.LoginRequest?
    ensures id < |Apply(users, cfg, now, req)|
    ensures Apply(users, cfg, now, req)[id].refreshToken.None?
  {
  }

  const ScenarioConfig: Config := Config(900, 864000)
  /** An account with no session yet, of the shape registration creates. */
  const Registered: User := User("A", "a@x.com", Password("Secret123"), "u", "", None)

  /** Logging in to that account at second 100 stores and returns the refresh token minted then. */
  lemma ScenarioLogin()
    ensures var r := Login([Registered], ScenarioConfig, 100, Some("a@x.com"), Some("Secret123"));
            && r.out.Done?
            && r.out.data.refreshToken == Token(Refresh, 0, 100, 864100)
            && r.users == [Registered.(refreshToken := Some(Token(Refresh, 0, 100, 864100)))]
  {
    assert FindByEmail([Registered], "a@x.com") == Some(0);
  }

  /** Then refreshing with that token at second 1000 rotates it; presenting it
      again at second 1001 fails with 401, while the new token is accepted. */
  lemma ScenarioRefreshThenReplay()
    ensures var R1 := Token(Refresh, 0, 100, 864100);
            var R2 := Token(Refresh, 0, 1000, 865000);
            var u1 := [Registered.(refreshToken := Some(R1))];
            var u2 := [Registered.(refreshToken := Some(R2))];
            && RefreshWith(u1, ScenarioConfig, 1000, R1).out.Done?
            && RefreshWith(u1, ScenarioConfig, 1000, R1).users == u2
            && RefreshWith(u2, ScenarioConfig, 1001, R1).out == Threw(ApiError(401, RefreshRejected))
            && RefreshWith(u2, ScenarioConfig, 1001, R2).out.Done?
  {
    var R1 := Token(Refresh, 0, 100, 864100);
    var u1 := [Registered.(refreshToken := Some(R1))];
    assert Holds(u1, R1);
    AcceptedOnlyIfHeld(u1, ScenarioConfig, 1000, R1);
    RotationDefeatsReplay(u1, ScenarioConfig, 1000, 1001, R1);
  }
}

=== FILE: text.dfy ===
/** The JavaScript string operations the controllers and the post schema rely on:
    `String.prototype.trim`, truthiness of an optional string field, and
    `length` counted in UTF-16 code units. */
module Text {
  import opened Api

  /** ECMAScript WhiteSpace and LineTerminator code points, the set `trim` removes. */
  predicate IsSpace(c: char)
  {
    || c == ' ' || c == '\t' || c == '\n' || c == '\r'
    || c == '\U{000B}' || c == '\U{000C}' || c == '\U{00A0}' || c == '\U{FEFF}'
    || c == '\U{1680}' || ('\U{2000}' <= c <= '\U{200A}')
    || c == '\U{2028}' || c == '\U{2029}' || c == '\U{202F}' || c == '\U{205F}'
    || c == '\U{3000}'
  }

  predicate AllSpace(s: string)
  {
    forall i :: 0 <= i < |s| ==> IsSpace(s[i])
  }

  /** Neither end of `s` is whitespace. */
  predicate IsTrimmed(s: string)
  {
    |s| == 0 || (!IsSpace(s[0]) && !IsSpace(s[|s| - 1]))
  }

  /** Drops leading whitespace: the result is a suffix of `s`, what was dropped
      is whitespace, and the result does not start with whitespace. */
  function TrimStart(s: string): (r: string)
    ensures |r| <= |s| && r == s[|s| - |r|..]
    ensures AllSpace(s[..|s| - |r|])
    ensures r == [] || !IsSpace(r[0])
    decreases |s|
  {
    if |s| > 0 && IsSpace(s[0]) then TrimStart(s[1..]) else s
  }

  /** Drops trailing whitespace: the result is a prefix of `s`, what was dropped
      is whitespace, and the result does not end with whitespace. */
  function TrimEnd(s: string): (r: string)
    ensures |r| <= |s| && r == s[..|r|]
    ensures AllSpace(s[|r|..])
    ensures r == [] || !IsSpace(r[|r| - 1])
    decreases |s|
  {
    if |s| > 0 && IsSpace(s[|s| - 1]) then TrimEnd(s[..|s| - 1]) else s
  }

  /** `s` is `r` with whitespace-only text before it (the first `i` characters)
      and after it. */
  predicate SpaceAround(s: string, i: nat, r: string)
  {
    && i + |r| <= |s|
    && AllSpace(s[..i])
    && s[i..i + |r|] == r
    && AllSpace(s[i + |r|..])
  }

  /** `String.prototype.trim`: the result has no whitespace at either end.
      `TrimSplits` and `TrimUnique` relate it to its input. */
  function Trim(s: string): (r: string)
    ensures IsTrimmed(r) && |r| <= |s|
  {
    var t := TrimStart(s);
    var r := TrimEnd(t);
    assert r != [] ==> r[0] == t[0];
    r
  }

  /** `s` is `Trim(s)` with whitespace-only text on either side. */
  lemma TrimSplits(s: string)
    ensures exists i: nat :: SpaceAround(s, i, Trim(s))
  {
    var t := TrimStart(s);
    var r := TrimEnd(t);
    var i := |s| - |t|;
    assert s[i..][..|r|] == s[i..i + |r|];
    assert s[i..][|r|..] == s[i + |r|..];
    assert SpaceAround(s, i, r);
    assert Trim(s) == r;
  }

  /** Leading trim stops at the first non-whitespace character. */
  lemma {:induction false} TrimStartStops(s: string, i: nat)
    requires i <= |s| && AllSpace(s[..i])
    requires i == |s| || !IsSpace(s[i])
    ensures TrimStart(s) == s[i..]
    decreases i
  {
    if i == 0 {
      assert s[0..] == s;
    } else {
      SpacePrefixTail(s, i);
      var t := s[1..];
      assert TrimStart(s) == TrimStart(t);
      assert i - 1 == |t| || t[i - 1] == s[i];
      TrimStartStops(t, i - 1);
      assert t[i - 1..] == s[i..];
    }
  }

  /** A whitespace prefix starts with whitespace, and stays whitespace once its
      first character is dropped. */
  lemma SpacePrefixTail(s: string, i: nat)
    requires 0 < i <= |s| && AllSpace(s[..i])
    ensures IsSpace(s[0]) && AllSpace(s[1..][..i - 1])
  {
    assert s[..i][0] == s[0];
    var u := s[1..][..i - 1];
    forall k | 0 <= k < |u|
      ensures IsSpace(u[k])
    {
      assert u[k] == s[..i][k + 1];
    }
  }

  /** Trailing trim stops after the last non-whitespace character. */
  lemma {:induction false} TrimEndStops(s: string, j: nat)
    requires j <= |s| && AllSpace(s[j..])
    requires j == 0 || !IsSpace(s[j - 1])
    ensures TrimEnd(s) == s[..j]
    decreases |s| - j
  {
    if j == |s| {
      assert s[..|s|] == s;
    } else {
      SpaceSuffixInit(s, j);
      var p := s[..|s| - 1];
      assert TrimEnd(s) == TrimEnd(p);
      assert j == 0 || p[j - 1] == s[j - 1];
      TrimEndStops(p, j);
      assert p[..j] == s[..j];
    }
  }

  /** A whitespace suffix ends with whitespace, and stays whitespace once its
      last character is dropped. */
  lemma SpaceSuffixInit(s: string, j: nat)
    requires j < |s| && AllSpace(s[j..])
    ensures IsSpace(s[|s| - 1]) && AllSpace(s[..|s| - 1][j..])
  {
    assert s[j..][|s| - 1 - j] == s[|s| - 1];
    var u := s[..|s| - 1][j..];
    forall k | 0 <= k < |u|
      ensures IsSpace(u[k])
    {
      assert u[k] == s[j..][k];
    }
  }

  /** A string with no whitespace at its ends is its own trim. */
  lemma TrimOfTrimmed(s: string)
    requires IsTrimmed(s)
    ensures Trim(s) == s
  {
    TrimStartStops(s, 0);
    TrimEndStops(s, |s|);
  }

  /** Trimming twice is trimming once. */
  lemma TrimIdempotent(s: string)
    ensures Trim(Trim(s)) == Trim(s)
  {
    TrimOfTrimmed(Trim(s));
  }

  /** Any split of `s` into whitespace, a core without whitespace at its ends,
      and whitespace, has `Trim(s)` as its core. */
  lemma TrimUnique(s: string, i: nat, r: string)
    requires SpaceAround(s, i, r) && IsTrimmed(r)
    ensures Trim(s) == r
  {
    if r == [] {
      SpaceAroundNothing(s, i);
      TrimOfAllSpace(s);
    } else {
      assert r[0] == s[i];
      TrimStartStops(s, i);
      TrimCore(s, i, r);
    }
  }

  /** Whitespace around an empty core is whitespace throughout. */
  lemma SpaceAroundNothing(s: string, i: nat)
    requires SpaceAround(s, i, [])
    ensures AllSpace(s)
  {
    forall k | 0 <= k < |s|
      ensures IsSpace(s[k])
    {
      if k < i {
        assert s[..i][k] == s[k];
      } else {
        assert s[i..][k - i] == s[k];
      }
    }
  }

  /** A string of whitespace only trims to the empty string. */
  lemma TrimOfAllSpace(s: string)
    requires AllSpace(s)
    ensures Trim(s) == []
  {
    assert s[..|s|] == s;
    TrimStartStops(s, |s|);
    TrimEndStops([], 0);
  }

  /** Once the leading whitespace is gone, trailing trim leaves exactly a
      non-empty core that does not end in whitespace. */
  lemma TrimCore(s: string, i: nat, r: string)
    requires SpaceAround(s, i, r) && r != [] && !IsSpace(r[|r| - 1])
    ensures TrimEnd(s[i..]) == r
  {
    var t := s[i..];
    var j := i + |r|;
    assert t[..|r|] == s[i..j];
    assert t[|r|..] == s[j..];
    assert t[|r| - 1] == r[|r| - 1];
    TrimEndStops(t, |r|);
  }

  /** JavaScript truthiness of an optional string field (`if (title)`). */
  predicate Truthy(o: Option<string>)
    ensures !Blank(o) ==> Truthy(o)
    ensures o.Some? && IsTrimmed(o.value) ==> (Truthy(o) <==> !Blank(o))
  {
    o.Some? && o.value != []
  }

  /** `!field?.trim()`: the field is absent or only whitespace. */
  predicate Blank(o: Option<string>)
    ensures Blank(o) <==> o.None? || AllSpace(o.value)
  {
    match o
    case None => true
    case Some(s) => TrimEmptyIffAllSpace(s); Trim(s) == []
  }

  /** `trim` leaves nothing exactly when there is nothing but whitespace. */
  lemma TrimEmptyIffAllSpace(s: string)
    ensures Trim(s) == [] <==> AllSpace(s)
  {
    if Trim(s) == [] {
      TrimSplits(s);
      var i: nat :| SpaceAround(s, i, Trim(s));
      SpaceAroundNothing(s, i);
    }
    if AllSpace(s) {
      TrimOfAllSpace(s);
    }
  }

  /** Trims every element, as the schema does for each tag. */
  function TrimAll(xs: seq<string>): (r: seq<string>)
    ensures |r| == |xs|
    ensures forall k :: 0 <= k < |xs| ==> r[k] == Trim(xs[k])
  {
    seq(|xs|, k requires 0 <= k < |xs| => Trim(xs[k]))
  }

  /** JavaScript `length`: a code point above U+FFFF takes two UTF-16 code units. */
  function Utf16Length(s: string): (n: nat)
    ensures |s| <= n <= 2 * |s|
    ensures n == |s| <==> forall k :: 0 <= k < |s| ==> s[k] as int <= 0xFFFF
  {
    if s == [] then 0
    else
      var rest := Utf16Length(s[1..]);
      assert forall k :: 1 <= k < |s| ==> s[k] == s[1..][k - 1];
      (if s[0] as int <= 0xFFFF then 1 else 2) + rest
  }

  /** One character counts one code unit inside the Basic Multilingual Plane
      and two (a surrogate pair) above it. */
  lemma Utf16One(c: char)
    ensures Utf16Length([c]) == if c as int <= 0xFFFF then 1 else 2
  {
    assert [c][1..] == [];
  }

  /** Lengths add up: the length of a concatenation is the sum of the lengths. */
  lemma {:induction false} Utf16Append(a: string, b: string)
    ensures Utf16Length(a + b) == Utf16Length(a) + Utf16Length(b)
    decreases |a|
  {
    if a == [] {
      assert a + b == b;
    } else {
      assert (a + b)[0] == a[0];
      assert (a + b)[1..] == a[1..] + b;
      Utf16Append(a[1..], b);
    }
  }
}

=== FILE: tokens.dfy ===
/** Access and refresh tokens, abstracted from their JSON Web Token encoding.

    Signing and the minting methods of the user model are not part of this
    model; `Mint` stands for them. The model assumes that those methods sign a
    payload `{ _id, iat, exp }` with HS256, so that a token is determined by the
    secret that signed it (its kind), its subject, and its issue and expiry
    times in whole seconds. Under that assumption two tokens minted for the
    same subject in the same second with the same lifetime are the same token. */
module Tokens {
  import opened Api

  /** A user's `_id`: the position of the record in the user collection. */
  type UserId = nat

  /** Which secret signed a token: the access secret, the refresh secret, or
      one this server does not hold (a forgery). */
  datatype Kind = Access | Refresh | Foreign

  datatype Token = Token(kind: Kind, subject: UserId, issuedAt: int, expiresAt: int)

  /** What a client presents where a refresh token is expected: a token, or a
      string that does not parse as one. */
  datatype Wire = Jwt(token: Token) | Garbled(text: string)

  /** Token lifetimes in seconds (`ACCESS_TOKEN_EXPIRY`, `REFRESH_TOKEN_EXPIRY`). */
  datatype Config = Config(accessTtl: nat, refreshTtl: nat)

  datatype TokenPair = TokenPair(accessToken: Token, refreshToken: Token)

  /** A token of the given kind for `subject`, issued at `now`. */
  function Mint(kind: Kind, subject: UserId, now: int, ttl: nat): (t: Token)
    ensures t.kind == kind && t.subject == subject
    ensures t.issuedAt == now && t.expiresAt - t.issuedAt == ttl
  {
    Token(kind, subject, now, now + ttl)
  }

  /** `generateAccessToken` and `generateRefreshToken` for one user at `now`. */
  function MintPair(cfg: Config, subject: UserId, now: int): (p: TokenPair)
    ensures p.accessToken.kind == Access && p.refreshToken.kind == Refresh
    ensures p.accessToken.subject == subject && p.refreshToken.subject == subject
    ensures p.refreshToken.issuedAt == now && p.refreshToken.expiresAt == now + cfg.refreshTtl
  {
    TokenPair(Mint(Access, subject, now, cfg.accessTtl), Mint(Refresh, subject, now, cfg.refreshTtl))
  }

  /** `jwt.verify(token, REFRESH_TOKEN_SECRET)` at time `now`: the decoded
      subject, or nothing when the value is unparsable, was signed with another
      secret, or has expired (the library rejects from the expiry second on). */
  function VerifyRefresh(w: Wire, now: int): (r: Option<UserId>)
    ensures r.Some? <==> w.Jwt? && w.token.kind == Refresh && now < w.token.expiresAt
    ensures r.Some? ==> r.value == w.token.subject
  {
    match w
    case Garbled(_) => None
    case Jwt(t) => if t.kind == Refresh && now < t.expiresAt then Some(t.subject) else None
  }

  /** Round trip: a freshly minted refresh token verifies to the subject it was
      minted for exactly until its lifetime has run out. */
  lemma MintedRefreshVerifies(cfg: Config, subject: UserId, issued: int, now: int)
    ensures VerifyRefresh(Jwt(MintPair(cfg, subject, issued).refreshToken), now) ==
              (if now < issued + cfg.refreshTtl then Some(subject) else None)
  {
  }

  /** An access token is never accepted where a refresh token is expected. */
  lemma AccessTokenIsNotRefresh(cfg: Config, subject: UserId, issued: int, now: int)
    ensures VerifyRefresh(Jwt(MintPair(cfg, subject, issued).accessToken), now).None?
  {
  }
}

=== FILE: users.dfy ===
/** The user controller (server/src/controllers/user.controller.js) as transitions
    over the user collection.

    The collection is a sequence in insertion order; a user's `_id` is its
    position, and no operation here deletes a user. `findOne({ email })` is the
    first record with exactly that email. Each request is one sequential step
    `(users, request) -> (outcome, users')`. */
module Users {
  import opened Api
  import opened Text
  import opened Tokens

  /** The stored password. Comparing it with an attempt stands for the user
      model's bcrypt comparison, which is not part of this model. */
  datatype Password = Password(secret: string)

  predicate PasswordMatches(p: Password, attempt: string)
  {
    p.secret == attempt
  }

  /** A user record: profile fields, the password, and the one stored refresh token. */
  datatype User = User(
    fullName: string,
    email: string,
    password: Password,
    avatar: string,
    bio: string,
    refreshToken: Option<Token>)

  /** What clients are shown of a user: `select("-password -refreshToken")`. */
  datatype UserView = UserView(id: UserId, fullName: string, email: string, avatar: string, bio: string)

  /** The result of one request together with the collection after it. */
  datatype Step<+T> = Step(out: Outcome<T>, users: seq<User>)

  datatype LoginData = LoginData(user: UserView, accessToken: Token, refreshToken: Token)

  function View(users: seq<User>, id: UserId): (v: UserView)
    requires id < |users|
    ensures v.id == id && v.email == users[id].email && v.fullName == users[id].fullName
    ensures v.avatar == users[id].avatar && v.bio == users[id].bio
  {
    var u := users[id];
    UserView(id, u.fullName, u.email, u.avatar, u.bio)
  }

  /** The projection reveals nothing of the password or the stored token: two
      records differing only in those look the same to a client. */
  lemma ViewHidesSecrets(users: seq<User>, id: UserId, password: Password, token: Option<Token>)
    requires id < |users|
    ensures View(users[id := users[id].(password := password, refreshToken := token)], id) == View(users, id)
  {
  }

  /** `User.findOne({ email })`: the first record whose email is exactly `email`. */
  function FindByEmail(users: seq<User>, email: string, from: nat := 0): (r: Option<UserId>)
    requires from <= |users|
    ensures r.Some? ==> from <= r.value < |users| && users[r.value].email == email
    ensures r.Some? ==> forall j :: from <= j < r.value ==> users[j].email != email
    ensures r.None? ==> forall j :: from <= j < |users| ==> users[j].email != email
    decreases |users| - from
  {
    if from == |users| then None
    else if users[from].email == email then Some(from)
    else FindByEmail(users, email, from + 1)
  }

  /** No two records share an email, as registration's duplicate check keeps it. */
  predicate UniqueEmails(users: seq<User>)
  {
    forall i, j :: 0 <= i < j < |users| ==> users[i].email != users[j].email
  }

  /** `user.refreshToken = refreshToken; user.save()` for one record. */
  function StoreRefreshToken(users: seq<User>, id: UserId, t: Option<Token>): (r: seq<User>)
    requires id < |users|
    ensures |r| == |users| && r[id] == users[id].(refreshToken := t)
    ensures forall j :: 0 <= j < |users| && j != id ==> r[j] == users[j]
  {
    users[id := users[id].(refreshToken := t)]
  }

  /** `generateAccessAndRefreshTokens`: mint a pair for `id` at `now` and
      overwrite that user's stored refresh token with the new one. */
  function GenerateTokens(users: seq<User>, cfg: Config, id: UserId, now: int): (r: (TokenPair, seq<User>))
    requires id < |users|
    ensures r.0 == MintPair(cfg, id, now)
    ensures |r.1| == |users| && r.1[id].refreshToken == Some(r.0.refreshToken)
    ensures forall j :: 0 <= j < |users| && j != id ==> r.1[j] == users[j]
    ensures r.1[id] == users[id].(refreshToken := r.1[id].refreshToken)
  {
    var pair := MintPair(cfg, id, now);
    (pair, StoreRefreshToken(users, id, Some(pair.refreshToken)))
  }

  const AllFieldsRequired: string := "All fields are required"
  const UserExists: string := "User already exists with this email"
  const AvatarRequired: string := "Avatar image is required"
  const AvatarUploadFailed: string := "Failed to upload avatar to Cloudinary"

  /** `registerUser`: reject blank fields and a taken email with 400, require an
      uploaded avatar, then append the new record. */
  function Register(users: seq<User>, fullName: Option<string>, email: Option<string>,
                    password: Option<string>, avatar: Attachment): (r: Step<UserView>)
    ensures r.out.Threw? ==> r.users == users
    ensures Blank(fullName) || Blank(email) || Blank(password) ==>
              r.out == Threw(ApiError(400, AllFieldsRequired))
    ensures !Blank(fullName) && !Blank(email) && !Blank(password) && FindByEmail(users, email.value).Some? ==>
              r.out == Threw(ApiError(400, UserExists))
    ensures !Blank(email) && FindByEmail(users, email.value).Some? ==> r.out.Threw? && StatusOf(r.out) == 400
    ensures (!Blank(fullName) && !Blank(email) && !Blank(password) && FindByEmail(users, email.value).None?
             && avatar.NoFile?) ==> r.out == Threw(ApiError(400, AvatarRequired))
    ensures (!Blank(fullName) && !Blank(email) && !Blank(password) && FindByEmail(users, email.value).None?
             && UploadFailed(avatar)) ==> r.out == Threw(ApiError(500, AvatarUploadFailed))
    ensures r.out.Done? <==>
              && !Blank(fullName) && !Blank(email) && !Blank(password)
              && FindByEmail(users, email.value).None?
              && UploadedUrl(avatar).Some?
    ensures r.out.Done? ==>
              && r.out.status == 201
              && |r.users| == |users| + 1 && r.users[..|users|] == users
              && var u := r.users[|users|];
                 u.email == email.value && u.fullName == fullName.value
                 && u.password == Password(password.value)
                 && u.avatar == UploadedUrl(avatar).value && u.bio == ""
                 && u.refreshToken.None?
                 && r.out.data == View(r.users, |users|)
    ensures r.out.Threw? ==> StatusOf(r.out) in {400, 500}
  {
    if Blank(fullName) || Blank(email) || Blank(password) then
      Step(Threw(ApiError(400, AllFieldsRequired)), users)
    else if FindByEmail(users, email.value).Some? then
      Step(Threw(ApiError(400, UserExists)), users)
    else if avatar.NoFile? then
      Step(Threw(ApiError(400, AvatarRequired)), users)
    else if UploadedUrl(avatar).None? then
      Step(Threw(ApiError(500, AvatarUploadFailed)), users)
    else
      var u := User(fullName.value, email.value, Password(password.value),
                    UploadedUrl(avatar).value, "", None);
      var users' := users + [u];
      Step(Done(201, View(users', |users|), "User registered successfully"), users')
  }

  const CredentialsRequired: string := "Email and password are required"
  const UserNotFound: string := "User not found"
  const InvalidCredentials: string := "Invalid credentials"

  /** The account a login attempt with these credentials would open, if any. */
  predicate LoginAccepted(users: seq<User>, email: Option<string>, password: Option<string>)
  {
    && Truthy(email) && Truthy(password)
    && var id := FindByEmail(users, email.value);
       id.Some? && PasswordMatches(users[id.value].password, password.value)
  }

  /** `loginUser`: check the credentials, then mint a pair and overwrite the
      stored refresh token, whatever was stored before. */
  function Login(users: seq<User>, cfg: Config, now: int,
                 email: Option<string>, password: Option<string>): (r: Step<LoginData>)
    ensures !Truthy(email) || !Truthy(password) ==>
              r == Step(Threw(ApiError(400, CredentialsRequired)), users)
    ensures Truthy(email) && Truthy(password) && FindByEmail(users, email.value).None? ==>
              r == Step(Threw(ApiError(404, UserNotFound)), users)
    ensures Truthy(email) && Truthy(password) && FindByEmail(users, email.value).Some?
              && !PasswordMatches(users[FindByEmail(users, email.value).value].password, password.value) ==>
              r == Step(Threw(ApiError(401, InvalidCredentials)), users)
    ensures r.out.Done? <==> LoginAccepted(users, email, password)
    ensures r.out.Done? ==>
              && var id := FindByEmail(users, email.value).value;
                 && r.out.status == 200
                 && |r.users| == |users|
                 && r.users[id].refreshToken == Some(r.out.data.refreshToken)
                 && r.users[id] == users[id].(refreshToken := Some(r.out.data.refreshToken))
                 && r.out.data.refreshToken == MintPair(cfg, id, now).refreshToken
                 && r.out.data.accessToken == MintPair(cfg, id, now).accessToken
                 && r.out.data.user == View(users, id)
                 && (forall j :: 0 <= j < |users| && j != id ==> r.users[j] == users[j])
  {
    if !Truthy(email) || !Truthy(password) then
      Step(Threw(ApiError(400, CredentialsRequired)), users)
    else
      match FindByEmail(users, email.value)
      case None => Step(Threw(ApiError(404, UserNotFound)), users)
      case Some(id) =>
        if !PasswordMatches(users[id].password, password.value) then
          Step(Threw(ApiError(401, InvalidCredentials)), users)
        else
          var (pair, users') := GenerateTokens(users, cfg, id, now);
          Step(Done(200, LoginData(View(users', id), pair.accessToken, pair.refreshToken),
                    "Logged in successfully"), users')
  }

  /** `logoutUser`: unset the principal's stored refresh token. A principal with
      no record leaves the collection as it is. */
  function Logout(users: seq<User>, principal: UserId): (r: Step<()>)
    ensures r.out == Done(200, (), "Logged out successfully")
    ensures |r.users| == |users|
    ensures principal < |users| ==> r.users[principal] == users[principal].(refreshToken := None)
    ensures forall j :: 0 <= j < |users| && j != principal ==> r.users[j] == users[j]
  {
    var users' := if principal < |users| then StoreRefreshToken(users, principal, None) else users;
    Step(Done(200, (), "Logged out successfully"), users')
  }

  const NoRefreshToken: string := "No refresh token provided"
  const InvalidRefreshToken: string := "Invalid refresh token"
  const RefreshRejected: string := "Refresh token is expired or invalid. Please log in again."

  /** JavaScript truthiness of a presented token value (an empty string is falsy). */
  predicate Presented(w: Option<Wire>)
    ensures Presented(w) <==> w.Some? && (w.value.Jwt? || w.value.text != [])
  {
    w.Some? && w != Some(Garbled([]))
  }

  /** `req.cookies.refreshToken || req.body.refreshToken`. */
  function Incoming(cookie: Option<Wire>, body: Option<Wire>): (w: Option<Wire>)
    ensures Presented(cookie) ==> w == cookie
    ensures !Presented(cookie) ==> w == body
  {
    if Presented(cookie) then cookie else body
  }

  /** The validity rule a refresh token must meet: it verifies at `now` and it is
      literally the token stored for its subject. */
  predicate Accepts(users: seq<User>, w: Option<Wire>, now: int)
    ensures Accepts(users, w, now) ==> Presented(w)
    ensures Accepts(users, w, now) <==>
              && w.Some? && VerifyRefresh(w.value, now).Some?
              && VerifyRefresh(w.value, now).value < |users|
              && users[VerifyRefresh(w.value, now).value].refreshToken == Some(w.value.token)
  {
    && w.Some? && w.value.Jwt?
    && var t := w.value.token;
       && t.kind == Refresh && now < t.expiresAt
       && t.subject < |users| && users[t.subject].refreshToken == Some(t)
  }

  /** `refreshAccessToken`: accept the presented token only when it is present,
      verifies, names an existing user and equals the stored token; then rotate. */
  function RefreshAccessToken(users: seq<User>, cfg: Config, now: int,
                   cookie: Option<Wire>, body: Option<Wire>): (r: Step<TokenPair>)
    ensures r.out.Done? <==> Accepts(users, Incoming(cookie, body), now)
    ensures r.out.Threw? ==> r.users == users && r.out.error.ApiError? && r.out.error.statusCode == 401
    ensures !Presented(Incoming(cookie, body)) ==> r.out == Threw(ApiError(401, NoRefreshToken))
    ensures Presented(Incoming(cookie, body)) && VerifyRefresh(Incoming(cookie, body).value, now).None? ==>
              r.out == Threw(ApiError(401, InvalidRefreshToken))
    ensures (Presented(Incoming(cookie, body)) && VerifyRefresh(Incoming(cookie, body).value, now).Some?
             && !Accepts(users, Incoming(cookie, body), now)) ==> r.out == Threw(ApiError(401, RefreshRejected))
    ensures r.out.Done? ==>
              && var id := Incoming(cookie, body).value.token.subject;
                 && r.out.status == 200
                 && r.out.data == MintPair(cfg, id, now)
                 && |r.users| == |users|
                 && r.users[id] == users[id].(refreshToken := Some(r.out.data.refreshToken))
                 && (forall j :: 0 <= j < |users| && j != id ==> r.users[j] == users[j])
  {
    var w := Incoming(cookie, body);
    if !Presented(w) then
      Step(Threw(ApiError(401, NoRefreshToken)), users)
    else
      match VerifyRefresh(w.value, now)
      case None => Step(Threw(ApiError(401, InvalidRefreshToken)), users)
      case Some(id) =>
        if id >= |users| || users[id].refreshToken != Some(w.value.token) then
          Step(Threw(ApiError(401, RefreshRejected)), users)
        else
          var (pair, users') := GenerateTokens(users, cfg, id, now);
          Step(Done(200, pair, "Token refreshed successfully"), users')
  }

  /** `updateUserProfile`: set `fullName` and `bio` when truthy and `avatar` when
      an upload produced a URL; answer with the updated projection, or with
      nothing when the principal has no record. */
  function UpdateProfile(users: seq<User>, principal: UserId, fullName: Option<string>,
                         bio: Option<string>, avatar: Attachment): (r: Step<Option<UserView>>)
    ensures r.out.Done? && r.out.status == 200
    ensures |r.users| == |users|
    ensures forall j :: 0 <= j < |users| && j != principal ==> r.users[j] == users[j]
    ensures principal < |users| ==>
              && var (old_, new_) := (users[principal], r.users[principal]);
                 && new_.email == old_.email
                 && new_.password == old_.password
                 && new_.refreshToken == old_.refreshToken
                 && new_.fullName == (if Truthy(fullName) then fullName.value else old_.fullName)
                 && new_.bio == (if Truthy(bio) then bio.value else old_.bio)
                 && new_.avatar == (if UploadedUrl(avatar).Some? then UploadedUrl(avatar).value else old_.avatar)
                 && r.out.data == Some(View(r.users, principal))
    ensures principal >= |users| ==> r.users == users && r.out.data.None?
  {
    if principal >= |users| then
      Step(Done(200, None, "Profile updated successfully"), users)
    else
      var u := users[principal];
      var u1 := if Truthy(fullName) then u.(fullName := fullName.value) else u;
      var u2 := if Truthy(bio) then u1.(bio := bio.value) else u1;
      var u3 := if UploadedUrl(avatar).Some? then u2.(avatar := UploadedUrl(avatar).value) else u2;
      var users' := users[principal := u3];
      Step(Done(200, Some(View(users', principal)), "Profile updated successfully"), users')
  }

  /** Registration keeps emails unique. */
  lemma RegisterKeepsEmailsUnique(users: seq<User>, fullName: Option<string>, email: Option<string>,
                                  password: Option<string>, avatar: Attachment)
    requires UniqueEmails(users)
    ensures UniqueEmails(Register(users, fullName, email, password, avatar).users)
  {
    var r := Register(users, fullName, email, password, avatar);
    if r.out.Done? {
      var n := |users|;
      assert r.users == r.users[..n] + [r.users[n]];
      AppendFreshEmail(users, r.users[n]);
    }
  }

  /** Appending a record whose email no record has keeps emails unique. */
  lemma AppendFreshEmail(users: seq<User>, u: User)
    requires UniqueEmails(users)
    requires forall j :: 0 <= j < |users| ==> users[j].email != u.email
    ensures UniqueEmails(users + [u])
  {
    var us := users + [u];
    forall i, j | 0 <= i < j < |us|
      ensures us[i].email != us[j].email
    {
      assert us[i] == users[i];
      if j < |users| {
        assert us[j] == users[j];
      }
    }
  }
}
